=== FILE: README.md ===
# Wallet connection UI — a Dafny model

This project models the wallet-connection UI of a Solana component showcase. It covers three pieces.

- **The connect-wallet dialog.** A static display table is keyed by wallet adapter name. A classifier splits the adapter list into the "Installed", "Popular" and "More" sections. A status effect turns the wallet context's `connecting` / `connected` / `publicKey` signals into one of `idle`, `connecting`, `connected` or `retry`. The dialog also has open, close, wallet-click, Continue and Try Again handlers.
- **The wallet dropdown.** It combines:
  - an expand/collapse controller (`isExpanded`, `showContent`, the running timeline and its end geometry);
  - the copy-address button, with its 2000 ms reset timers;
  - the 5000 ms balance poll;
  - the address shortener;
  - what the component renders.
- **The token icon.** It picks an image URL, walks the three SOL fallback URLs on load errors, and then shows the symbol's initial letter.

React state and effects become immutable datatypes and pure step functions over explicit events. The wallet library's signals, the clipboard's answer, the RPC result and the DOM's measured height are event parameters. Time is a discrete millisecond clock: one `Tick` is one millisecond, and a pending timer is kept as its due time.

Files:
- `common.dfy`: the `Common` module (the `Option` type).
- `catalog.dfy`: the `Catalog` module.
- `connect_wallet.dfy`: the `ConnectWallet` module.
- `token_icon.dfy`: the `TokenIcon` module.
- `js_string.dfy`: the `JsString` module.
- `copy_feedback.dfy`: the `CopyFeedback` module.
- `balance_poll.dfy`: the `BalancePoll` module.
- `expansion.dfy`: the `Expansion` module.
- `wallet_dropdown.dfy`: the `WalletDropdown` module.

Facts about the code that the model keeps as written:
- The code adds no synthetic "install this wallet" entry. The classifier only drops unknown names and splits the rest, so `Catalog.PhantomSolflareExample` has an empty "More" section.
- The code calls `select` immediately inside the click handler. Nothing is deferred to the next frame.
- Try Again resets to nothing selected and `idle`. It does not call `select` again (`ConnectWallet.PhantomCancelled`).
- The click handler never sets the status. Only the status effect moves the status away from idle; closing, Continue and Try Again only ever set it back to idle.
- Copy resets are never cancelled. Two presses at 0 ms and 500 ms therefore show the check mark only until 2000 ms (`CopyFeedback.SecondPressCutShort`).
- The copy button ignores pointer events while the dropdown is collapsing. A press on it during the closing timeline expands the dropdown again (`WalletDropdown.CopyWhileClosingReexpands`).
- The token icon's error handler does not look at the `image` prop. For a SOL icon with its own image, an error advances the fallback index but the URL stays that image (`TokenIcon.OwnImageUrlStays`).
- An installed wallet appears twice: in "Installed" and in its category section. A display id is therefore not unique across the three sections.

## Model

| member | source | states |
|---|---|---|
| Catalog.Classify | components/NewDesigns/connect-wallet.tsx:131-155 | The one-pass classifier produces exactly the reference sections: each equals the known wallets of the input that belong to it, in input order. |
| Catalog.DisplayMap | components/NewDesigns/connect-wallet.tsx:38-122 | The display table has exactly the five adapter names Phantom, Solflare, Avana, Alpha and Coinbase Wallet. Exactly Phantom and Solflare are popular. Every display name is the adapter name, except Coinbase Wallet, which is shown as "Coinbase". |
| Catalog.SelectOnlyKnown | components/NewDesigns/connect-wallet.tsx:137-141 | Every listed entry has a name from the display table, carries that name's display information, belongs to its section, and wraps a wallet of the input. |
| Catalog.UnknownDropped | components/NewDesigns/connect-wallet.tsx:138-139 | A wallet whose adapter name is not in the display table appears in no section. |
| Catalog.SelectComplete | components/NewDesigns/connect-wallet.tsx:137-152 | A known wallet of the input is listed in a section if and only if it belongs to that section. |
| Catalog.InstalledIff | components/NewDesigns/connect-wallet.tsx:143-145 | A known wallet is in "Installed" if and only if its ready state is Installed. |
| Catalog.CategoryExclusive | components/NewDesigns/connect-wallet.tsx:147-151 | A known wallet is in "Popular" if and only if its category is popular, and in "More" if and only if it is more, regardless of its ready state. |
| Catalog.PopularMorePartition | components/NewDesigns/connect-wallet.tsx:147-151 | "Popular" and "More" partition the known wallets: their multisets add up to the known wallets, and so do their lengths. |
| Catalog.SelectInInputOrder | components/NewDesigns/connect-wallet.tsx:137-152 | Each section is a subsequence of the adapter list: a strictly increasing index sequence maps its entries to the input positions they came from. |
| Catalog.PhantomSolflareExample | components/NewDesigns/connect-wallet.tsx:38-80 | With Phantom installed and Solflare not detected, "Installed" holds only Phantom, "Popular" holds both, and "More" is empty. No install entry is added. |
| ConnectWallet.Step | components/NewDesigns/connect-wallet.tsx:158-172 | The status effect never changes the selection. It does nothing without a truthy selection, or when the selection is not an installed wallet. The busy signal forces connecting. Connected is entered only from connecting with connected and a key. Retry is entered only from connecting with all three signals false. Idle stays idle unless busy, so an existing session is not reported as connected. |
| ConnectWallet.IterateSettles | components/NewDesigns/connect-wallet.tsx:165-173 | With unchanged signals, re-running the effect on its own output any number of times gives the result of one run. The effect reaches a fixpoint. |
| ConnectWallet.Handle | components/NewDesigns/connect-wallet.tsx:176-368 | Opening sets only the open flag. Closing gives a closed dialog with nothing selected and idle. Continue does the same, but only on the Connected panel (open dialog, selection of an installed wallet, status connected). Try Again gives nothing selected and idle with the dialog open, but only on the Retry panel. Off its panel either button changes nothing. None of these calls `select`. Clicking a non-installed wallet, an entry that is not listed, or any wallet while the dialog is closed changes nothing and calls nothing. Clicking a listed installed wallet in the open dialog keeps it open, records the name, calls `select` with that same name, and leaves the status to the effect. A signal change runs the status effect once, and the result is its fixpoint. |
| ConnectWallet.RunKeepsInv | components/NewDesigns/connect-wallet.tsx:176-218 | In every state reachable from the initial dialog, a closed dialog has nothing selected and is idle, and a non-idle status always has a selection. |
| ConnectWallet.ConnectedOnlyAfterConnecting | components/NewDesigns/connect-wallet.tsx:167-168 | Whenever a run of dialog events ends with status connected, some earlier prefix of the run ended with status connecting. |
| ConnectWallet.PhantomConnects | components/NewDesigns/connect-wallet.tsx:213-218 | Clicking installed Phantom calls `select("Phantom")` and shows connecting. Connected with a key then shows connected. |
| ConnectWallet.PhantomCancelled | components/NewDesigns/connect-wallet.tsx:365-368 | A cancelled request shows retry. Try Again returns to nothing selected and idle without calling `select`. |
| JsString.TruncateAddress | components/NewDesigns/wallet-dropdown.tsx:236-238 | The label is the first `min(4, n)` characters, "...", and the last `min(4, n)` characters, following JavaScript slice semantics. Its length is `2*min(4, n) + 3`. For addresses of 8 or more characters it has length 11, begins with the first four and ends with the last four. |
| TokenIcon.IconUrl | components/sol/token-icon.tsx:24-30 | A truthy `image` is always the URL. Otherwise SOL uses the fallback URL at the current index, and any other symbol uses "/logo.png". The URL is always one of these. |
| TokenIcon.ImageError | components/sol/token-icon.tsx:32-40 | A SOL error below the last index advances the index by one and keeps `imgError` false. Any other error sets `imgError`. Once `imgError` is set no image exists, so the state is terminal. The index stays inside the list. |
| TokenIcon.IndexInRange | components/sol/token-icon.tsx:14-21 | After any number of errors from the initial state, the index is within the three SOL URLs. |
| TokenIcon.SolChain | components/sol/token-icon.tsx:32-40 | For SOL, after n errors the state is index n with no error while n < 3, and index 2 with the error flag from then on. |
| TokenIcon.OtherChain | components/sol/token-icon.tsx:37-39 | For any other symbol, one error or more reaches the letter fallback at index 0. |
| TokenIcon.ErrorsToLetter | components/sol/token-icon.tsx:32-40 | The letter fallback is reached if and only if SOL has had at least three errors, or another symbol at least one. |
| TokenIcon.SolUrlsInOrder | components/sol/token-icon.tsx:26-28 | A SOL icon without its own image tries the three fallback URLs in list order. |
| TokenIcon.OwnImageUrlStays | components/sol/token-icon.tsx:24-40 | With a given image, the URL stays that image after any number of errors. For SOL, the index still advances with each error below three. |
| TokenIcon.Letter | components/sol/token-icon.tsx:73 | The fallback is one character: the upper-cased first character of a non-empty symbol, or "?" for an absent or empty symbol. It is never an ASCII lower-case letter (a-z). |
| TokenIcon.Render | components/sol/token-icon.tsx:44-76 | The box is the size plus 2. The size defaults to 24 only when the prop is absent. An image is rendered if and only if `imgError` is false, with the selected URL. Otherwise the letter badge is rendered. |
| TokenIcon.RenderAfterErrors | components/sol/token-icon.tsx:32-76 | After n load errors, the letter badge is rendered exactly when SOL has had three errors or another symbol one. Before that, the image at the current URL is rendered. |
| CopyFeedback.CopyAddress | components/NewDesigns/wallet-dropdown.tsx:226-233 | With no key, or when the clipboard write is refused, nothing changes. Otherwise the full key is written, `copied` becomes true, and one reset is appended 2000 ms later. Earlier resets are kept. |
| CopyFeedback.Fire | components/NewDesigns/wallet-dropdown.tsx:231 | When the clock reaches a due reset, `copied` is cleared and the due resets are dropped. All later resets stay pending. If nothing is due, nothing changes. |
| CopyFeedback.StaysCleared | components/NewDesigns/wallet-dropdown.tsx:231 | A cleared flag stays cleared while time passes without presses. |
| CopyFeedback.QuietWhileNothingDue | components/NewDesigns/wallet-dropdown.tsx:231 | Time passing changes nothing while no reset falls due. |
| CopyFeedback.ClearedByDueReset | components/NewDesigns/wallet-dropdown.tsx:231 | If a pending reset falls inside the elapsed window, the flag is clear at its end. |
| CopyFeedback.CopiedForTwoSeconds | components/NewDesigns/wallet-dropdown.tsx:229-231 | After a successful press with no earlier reset due in the window, the check mark shows for every elapsed time under 2000 ms. At 2000 ms or later it is gone. |
| CopyFeedback.SecondPressCutShort | components/NewDesigns/wallet-dropdown.tsx:229-231 | Presses at 0 ms and 500 ms: the check mark still shows at 1999 ms and is gone at 2000 ms, because the first reset is not cancelled. |
| BalancePoll.Fetch | components/NewDesigns/wallet-dropdown.tsx:28-44 | Without a key or connection, the fetch only clears `loading`. Otherwise it sets `loading`, issues one request for that key, and counts it as outstanding. |
| BalancePoll.Clear | components/NewDesigns/wallet-dropdown.tsx:51 | Clearing a handle removes exactly the intervals with that handle. All others stay installed. If no interval carries the handle, nothing changes. |
| BalancePoll.ClearInOrder | components/NewDesigns/wallet-dropdown.tsx:51 | Clearing keeps the installation order: clearing a concatenation clears each part in place. |
| BalancePoll.Start | components/NewDesigns/wallet-dropdown.tsx:27-52 | An effect run clears the interval the previous run installed and keeps every other installed interval. It issues at most one request, exactly one with a key and a connection. It installs one interval with a fresh handle, bound to the new dependencies and due 5000 ms later. The stored balance is kept, and the count of unresolved fetches grows by exactly the request issued. |
| BalancePoll.Change | components/NewDesigns/wallet-dropdown.tsx:52 | The effect re-runs only when the key or connection changed. Otherwise the poller is untouched. |
| BalancePoll.Tick | components/NewDesigns/wallet-dropdown.tsx:49 | Every installed interval that is due fires its fetch for the dependencies it closed over, in installation order, and is rescheduled one period later. The others are untouched. The stored balance is kept, and the count of unresolved fetches grows by one per request fired. With no interval installed nothing changes. |
| BalancePoll.TickQuiet | components/NewDesigns/wallet-dropdown.tsx:49 | A tick at which no installed interval is due changes nothing. |
| BalancePoll.TickOne | components/NewDesigns/wallet-dropdown.tsx:49 | With one interval installed, a tick fires it, and reschedules it, exactly when it is due. |
| BalancePoll.Resolve | components/NewDesigns/wallet-dropdown.tsx:36-43 | A settled fetch clears `loading`. A success stores the amount. A failure stores 0. With nothing outstanding, nothing changes. |
| BalancePoll.LastSettledWins | components/NewDesigns/wallet-dropdown.tsx:34-43 | After k outstanding fetches settle, k fewer remain, loading is off, and the balance is the last one to settle (0 if it failed), whatever settled before. No request is issued. |
| BalancePoll.Unmount | components/NewDesigns/wallet-dropdown.tsx:51 | Cleanup removes the interval the last effect run installed. It installs nothing and issues no request. |
| BalancePoll.NoFetchWithoutInterval | components/NewDesigns/wallet-dropdown.tsx:51 | With no interval installed, any amount of time passing issues no request and changes nothing. |
| BalancePoll.Cadence | components/NewDesigns/wallet-dropdown.tsx:49 | With one interval installed, bound to a key, m milliseconds after the effect run exactly m / 5000 further requests have been issued, all for that key. The interval is due at the next multiple of 5000. |
| BalancePoll.PollsNewKey | components/NewDesigns/wallet-dropdown.tsx:46-52 | On a key change, the interval of the previous run is cleared, so nothing polls the old key any more. m milliseconds later 1 + m / 5000 requests have been issued, all for the new key, after the unchanged earlier log. |
| Expansion.Animate | components/NewDesigns/wallet-dropdown.tsx:69-223 | Expanding mounts the content and starts the opening timeline. Collapsing with content mounted keeps it mounted and starts the closing timeline. Collapsing without content resets to the initial geometry at once. |
| Expansion.Step | components/NewDesigns/wallet-dropdown.tsx:55-66 | A container click flips `isExpanded`. A mousedown can only collapse: inside the dropdown, or while collapsed, it changes nothing. A completed opening timeline leaves 320 by the measured height at radius 12 with the profile at (-120, -38, 0.857). A completed closing timeline unmounts the content and restores the initial geometry. |
| Expansion.CloseHandler | components/NewDesigns/wallet-dropdown.tsx:155-167 | The closing timeline's completion handler hides the content and restores the 56 by 56 geometry at radius 9999, with the profile at (0, 0, 1). It leaves the expanded intent alone. |
| Expansion.Reachable | components/NewDesigns/wallet-dropdown.tsx:78-80 | In every reachable state: expanded implies the content is shown; an opening timeline runs only while expanded; a closing one runs only while collapsed with content shown; collapsed with nothing running means no content and the initial geometry. |
| Expansion.OrphanedCloseBreaksInv | components/NewDesigns/wallet-dropdown.tsx:76-167 | After open, close, open the state is expanded and opening; if the interrupted closing timeline's completion handler still ran, the dropdown would be expanded with no content, violating the invariant. |
| Expansion.CollapseEndsAtRest | components/NewDesigns/wallet-dropdown.tsx:155-167 | From a reachable collapsed state, completing the running timeline ends at the initial geometry, 56 by 56 at radius 9999 with the profile at (0, 0, 1), with no content. This is the same as the initial render style. |
| WalletDropdown.Step | components/NewDesigns/wallet-dropdown.tsx:226-304 | After unmount only the clock and a still-installed interval move; nothing shown changes. Unmount removes the interval of the last effect run. Container clicks and mousedowns need the rendered dropdown. Copy needs the expanded content and writes the full key; while collapsing, the click reaches the container and expands again without copying. A changed key or connection clears the previous run's interval and installs one with a fresh handle, due 5000 ms later. While mounted, a tick fires the copy reset and the balance intervals at the new time, a settled fetch goes to the poller's resolve step, and a finished timeline, a container click or a mousedown on the rendered dropdown goes to the expansion controller. Only a tick advances the clock. |
| WalletDropdown.Reachable | components/NewDesigns/wallet-dropdown.tsx:27-66 | In every state reached from mount: the expansion invariant holds. While mounted, exactly one interval is installed: the one the last effect run installed, bound to the current key and connection and due in the future. After unmount none is installed. While mounted every pending copy reset is in the future. |
| WalletDropdown.SilentAfterUnmount | components/NewDesigns/wallet-dropdown.tsx:51 | From an unmounted state satisfying the invariant (so the interval was cleared), no sequence of later events, ticks included, issues a request or changes what is shown. |
| WalletDropdown.UnmountedStaysSilent | components/NewDesigns/wallet-dropdown.tsx:46-51 | After any history ending in an unmount, no later events issue a `getBalance` request. |
| WalletDropdown.CopyWhileClosingReexpands | components/NewDesigns/wallet-dropdown.tsx:269-324 | Open, close, then a press on the copy button: nothing is copied, the clipboard is untouched and the dropdown is expanded again. |
| WalletDropdown.FormatBalance | components/NewDesigns/wallet-dropdown.tsx:241-244 | No stored balance reads "0.00"; a stored balance is shown as that amount. The text form occurs exactly for the null branch. |
| WalletDropdown.Render | components/NewDesigns/wallet-dropdown.tsx:241-308 | The dropdown renders if and only if connected with a key; otherwise the prompt text depends on `connected`. The content is present if and only if `showContent`, and takes pointer events if and only if expanded. It shows the shortened address and the copied icon. The balance is hidden while loading. Otherwise it reads "0.00" when none was fetched, and shows the stored amount when one was. |
| WalletDropdown.ExpandedShowsContent | components/NewDesigns/wallet-dropdown.tsx:299-304 | In every reachable state, an expanded, connected dropdown renders its content, and that content takes pointer events. |

## Left out

- GSAP tween parameters, easing, durations, intermediate geometry and the `requestAnimationFrame` retry polling. These are animation-runtime and floating-point work. `box` and `pose` hold the geometry left by the last completed timeline, and the measured content height is an event parameter.
- Expansion.Animate: `killTweensOf` is modelled as discarding the running timeline together with its completion handler. Whether the animation library also stops an emptied parent timeline was not confirmed. If it does not, a re-expand during a collapse would later run the closing handler while expanded, and `Expansion.OrphanedCloseBreaksInv` shows this would break the `isExpanded` implies `showContent` invariant of `Expansion.Reachable`. The expand animation's pending `requestAnimationFrame` callback is also not cancelled by a quick collapse in the code. The model does not represent that late callback.
- `balance / LAMPORTS_PER_SOL` and `toFixed(4)` are floating-point display arithmetic. The model keeps the balance in lamports and shows it as `Amount`.
- The clipboard, `getBalance`, `select()`, the wallet adapters and the provider setup (components/providers/WalletProvider.tsx) are foreign libraries and I/O. They appear only as event parameters and outputs. `console.error` logging is not modelled.
- The modal portal and the body-overflow lock (components/ui/connect-wallet-modal.tsx) are DOM plumbing. Only their effect is kept: the wallet buttons exist only while the modal is open.
- Icons, the `onError` DOM mutation of display-map and adapter icons, and the choice between the adapter icon and the display icon are presentation.
- The info panel, "Get a Wallet" and "Learn More" have no behaviour.
- Docs navigation and content, sidebars, Hero, Footer, Navbar, ComponentShowcase and the `app/` pages are static markup.
- ConnectWallet.Handle: opening the modal does not re-run the status effect, as in the code, because the effect does not depend on `isModalOpen`. React's render batching is collapsed into one step per event.
- TokenIcon.Letter: upper-cases ASCII letters only. Full Unicode `toUpperCase`, which can change length, is not modelled.
- TokenIcon.Render: the `className` and `alt` props are styling and accessibility text and are not modelled.
- Catalog.UnknownDropped: the display table is looked up as a plain JavaScript object, so names inherited from `Object.prototype` (`toString`, `constructor`, `hasOwnProperty`, `__proto__`) find a truthy value with no category and would be listed under "More", and under "Installed" when installed. The model treats the table as a map of its own keys only, so it drops those names.
- BalancePoll.Change: the effect's dependencies are compared by value, the key's base58 text and whether a connection exists. React compares the `publicKey` and `connection` objects by identity, so a new key object for the same account re-runs the effect in the code but not in the model.
- CopyFeedback.CopyAddress: `copied` is set and the reset scheduled at the press millisecond. In the code both happen only after the clipboard write resolves, which may be later.
- TokenIcon.ImageError: load errors are event inputs. Whether the browser reports another error for an unchanged `src`, as for a SOL icon whose own image keeps failing, is browser behaviour and is not modelled.

=== FILE: balance_poll.dfy ===
/**
  The dropdown's balance poll. Whenever the public key or the connection
  changes, the previous run's cleanup clears its interval, one fetch runs
  immediately and a new 5000 ms interval is installed. A fetch without a key
  only clears the loading flag; a failed fetch shows a balance of 0. Fetches
  are not cancelled: whichever resolves last writes the balance.
*/
module BalancePoll {
  import opened Common

  const Period: nat := 5000

  /** The effect's dependencies: the public key (as its base58 text) and whether a connection object exists. */
  datatype Deps = Deps(key: Option<string>, hasConnection: bool)

  /** An installed interval: its handle, the dependencies its callback closed over, and when it fires next. */
  datatype Interval = Interval(id: nat, deps: Deps, nextDue: nat)

  /**
    The poller's state: the dependencies of the last effect run, the handle
    of the interval that run installed (0 before the first run), every
    interval still installed, the loading flag, the balance (in lamports; the
    conversion to SOL is display arithmetic), the number of unresolved
    fetches, and the log of `getBalance` requests issued, by key.
  */
  datatype Poll = Poll(deps: Deps, current: nat, intervals: seq<Interval>, loading: bool, balance: Option<int>,
                       inflight: nat, requests: seq<string>)

  predicate CanFetch(d: Deps)
  {
    d.key.Some? && d.hasConnection
  }

  /** One call of the fetch function with the dependencies it closed over. */
  function Fetch(p: Poll, d: Deps): (r: Poll)
    ensures !CanFetch(d) ==> r == p.(loading := false)
    ensures CanFetch(d) ==> r.loading && r.inflight == p.inflight + 1 && r.requests == p.requests + [d.key.value]
    ensures r.deps == p.deps && r.current == p.current && r.intervals == p.intervals && r.balance == p.balance
  {
    if CanFetch(d) then
      p.(loading := true, inflight := p.inflight + 1, requests := p.requests + [d.key.value])
    else
      p.(loading := false)
  }

  /** `clearInterval(id)`: the interval with that handle is gone, every other one stays installed, in order. */
  function Clear(ivs: seq<Interval>, id: nat): (r: seq<Interval>)
    ensures forall iv :: iv in r <==> iv in ivs && iv.id != id
    ensures |r| <= |ivs|
    ensures (forall i :: 0 <= i < |ivs| ==> ivs[i].id != id) ==> r == ivs
    decreases |ivs|
  {
    if ivs == [] then []
    else (if ivs[0].id == id then [] else [ivs[0]]) + Clear(ivs[1..], id)
  }

  /** A single interval survives clearing exactly when its handle differs. */
  lemma ClearOne(iv: Interval, id: nat)
    ensures Clear([iv], id) == (if iv.id == id then [] else [iv])
  {
    assert [iv][1..] == [];
  }

  /** Clearing a list decides its first interval, then clears the rest. */
  lemma ClearCons(x: Interval, rest: seq<Interval>, id: nat)
    ensures Clear([x] + rest, id) == (if x.id == id then [] else [x]) + Clear(rest, id)
  {
    assert ([x] + rest)[0] == x;
    assert ([x] + rest)[1..] == rest;
  }

  /** Clearing keeps the installation order: clearing a concatenation clears each part in place. */
  lemma {:induction false} ClearInOrder(a: seq<Interval>, b: seq<Interval>, id: nat)
    ensures Clear(a + b, id) == Clear(a, id) + Clear(b, id)
    decreases |a|
  {
    if a == [] {
      assert a + b == b;
    } else {
      var head := if a[0].id == id then [] else [a[0]];
      calc {
        Clear(a + b, id);
        { assert a + b == [a[0]] + (a[1..] + b); ClearCons(a[0], a[1..] + b, id); }
        head + Clear(a[1..] + b, id);
        { ClearInOrder(a[1..], b, id); }
        head + (Clear(a[1..], id) + Clear(b, id));
        (head + Clear(a[1..], id)) + Clear(b, id);
        { assert a == [a[0]] + a[1..]; ClearCons(a[0], a[1..], id); }
        Clear(a, id) + Clear(b, id);
      }
    }
  }

  /** Clearing the handle every installed interval carries leaves none installed. */
  lemma {:induction false} ClearAllOwn(ivs: seq<Interval>, id: nat)
    requires forall i :: 0 <= i < |ivs| ==> ivs[i].id == id
    ensures Clear(ivs, id) == []
    decreases |ivs|
  {
    if ivs != [] {
      ClearAllOwn(ivs[1..], id);
    }
  }

  /**
    The effect body at time `now`: the previous run's cleanup clears the
    interval that run installed, the fetch runs once, and one new interval
    with a fresh handle is installed.
  */
  function Start(p: Poll, d: Deps, now: nat): (r: Poll)
    ensures r.deps == d && r.current == p.current + 1
    ensures |r.intervals| >= 1 && r.intervals[|r.intervals| - 1] == Interval(p.current + 1, d, now + Period)
    ensures r.intervals[..|r.intervals| - 1] == Clear(p.intervals, p.current)
    ensures forall i :: 0 <= i < |r.intervals| ==> r.intervals[i].id != p.current
    ensures |r.requests| == |p.requests| + (if CanFetch(d) then 1 else 0)
    ensures r.requests[..|p.requests|] == p.requests
    ensures CanFetch(d) ==> r.requests[|p.requests|] == d.key.value && r.loading
    ensures !CanFetch(d) ==> !r.loading
    ensures r.balance == p.balance && r.inflight == p.inflight + (if CanFetch(d) then 1 else 0)
  {
    var kept := Clear(p.intervals, p.current);
    var q := Fetch(p.(deps := d, intervals := kept), d);
    var added := Interval(p.current + 1, d, now + Period);
    assert (kept + [added])[..|kept|] == kept;
    assert q.requests == p.requests + (if CanFetch(d) then [d.key.value] else []);
    q.(current := p.current + 1, intervals := kept + [added])
  }

  /** The poller right after mounting: loading, no balance, and the effect's first run. */
  function Mount(d: Deps, now: nat): Poll
  {
    Start(Poll(d, 0, [], true, None, 0, []), d, now)
  }

  /** A render with dependencies `d`: the effect re-runs only if they changed. */
  function Change(p: Poll, d: Deps, now: nat): (r: Poll)
    ensures d == p.deps ==> r == p
    ensures d != p.deps ==> r == Start(p, d, now)
  {
    if d == p.deps then p else Start(p, d, now)
  }

  /** An interval after the clock reaches `now`: a due one is rescheduled one period later. */
  function Reschedule(iv: Interval, now: nat): (r: Interval)
    ensures r.id == iv.id && r.deps == iv.deps
    ensures iv.nextDue <= now ==> r.nextDue == iv.nextDue + Period
    ensures iv.nextDue > now ==> r == iv
  {
    if iv.nextDue <= now then iv.(nextDue := iv.nextDue + Period) else iv
  }

  /** Every installed interval after the clock reaches `now`, in order. */
  function RescheduleAll(ivs: seq<Interval>, now: nat): (r: seq<Interval>)
    ensures |r| == |ivs|
    ensures forall i :: 0 <= i < |ivs| ==> r[i] == Reschedule(ivs[i], now)
    decreases |ivs|
  {
    if ivs == [] then [] else [Reschedule(ivs[0], now)] + RescheduleAll(ivs[1..], now)
  }

  /** The keys the due intervals request, in installation order. */
  function DueKeys(ivs: seq<Interval>, now: nat): seq<string>
    decreases |ivs|
  {
    if ivs == [] then []
    else (if ivs[0].nextDue <= now && CanFetch(ivs[0].deps) then [ivs[0].deps.key.value] else [])
         + DueKeys(ivs[1..], now)
  }

  predicate NoneDue(ivs: seq<Interval>, now: nat)
  {
    forall i :: 0 <= i < |ivs| ==> ivs[i].nextDue > now
  }

  /** The callbacks of the intervals `ivs` that are due at `now`, run in order. */
  function FireDue(q: Poll, ivs: seq<Interval>, now: nat): (r: Poll)
    ensures r.requests == q.requests + DueKeys(ivs, now)
    ensures r.deps == q.deps && r.current == q.current && r.intervals == q.intervals && r.balance == q.balance
    ensures r.inflight == q.inflight + |DueKeys(ivs, now)|
    decreases |ivs|
  {
    if ivs == [] then q
    else
      var q1 := if ivs[0].nextDue <= now then Fetch(q, ivs[0].deps) else q;
      var head := if ivs[0].nextDue <= now && CanFetch(ivs[0].deps) then [ivs[0].deps.key.value] else [];
      assert q1.requests == q.requests + head;
      assert DueKeys(ivs, now) == head + DueKeys(ivs[1..], now);
      FireDue(q1, ivs[1..], now)
  }

  /** With nothing due, no callback runs. */
  lemma {:induction false} FireNoneDue(q: Poll, ivs: seq<Interval>, now: nat)
    requires NoneDue(ivs, now)
    ensures FireDue(q, ivs, now) == q
    decreases |ivs|
  {
    if ivs != [] {
      assert ivs[0].nextDue > now;
      assert NoneDue(ivs[1..], now) by {
        forall i | 0 <= i < |ivs[1..]| ensures ivs[1..][i].nextDue > now {
          assert ivs[1..][i] == ivs[i + 1];
        }
      }
      FireNoneDue(q, ivs[1..], now);
    }
  }

  /** The clock reaches `now`: every installed interval that is due calls the fetch and is rescheduled. */
  function Tick(p: Poll, now: nat): (r: Poll)
    ensures r.intervals == RescheduleAll(p.intervals, now)
    ensures r.requests == p.requests + DueKeys(p.intervals, now)
    ensures r.deps == p.deps && r.current == p.current
    ensures r.balance == p.balance && r.inflight == p.inflight + |DueKeys(p.intervals, now)|
    ensures p.intervals == [] ==> r == p
  {
    FireDue(p, p.intervals, now).(intervals := RescheduleAll(p.intervals, now))
  }

  /** A tick at which no installed interval is due changes nothing. */
  lemma TickQuiet(p: Poll, now: nat)
    requires NoneDue(p.intervals, now)
    ensures Tick(p, now) == p
  {
    FireNoneDue(p, p.intervals, now);
    assert RescheduleAll(p.intervals, now) == p.intervals;
  }

  /** With a single interval installed, a tick fires it exactly when it is due. */
  lemma TickOne(p: Poll, now: nat)
    requires |p.intervals| == 1
    ensures var iv := p.intervals[0];
            Tick(p, now) == if iv.nextDue <= now then Fetch(p, iv.deps).(intervals := [Reschedule(iv, now)]) else p
  {
    var iv := p.intervals[0];
    assert p.intervals[1..] == [];
    assert RescheduleAll(p.intervals, now) == [Reschedule(iv, now)];
    if iv.nextDue <= now {
      assert FireDue(Fetch(p, iv.deps), [], now) == Fetch(p, iv.deps);
      assert FireDue(p, p.intervals, now) == Fetch(p, iv.deps);
    } else {
      assert NoneDue(p.intervals, now);
      TickQuiet(p, now);
    }
  }

  /** One outstanding fetch settles; `None` is a rejected `getBalance`, which shows 0. */
  function Resolve(p: Poll, result: Option<int>): (r: Poll)
    ensures p.inflight == 0 ==> r == p
    ensures p.inflight > 0 ==> !r.loading && r.inflight == p.inflight - 1
    ensures p.inflight > 0 && result.None? ==> r.balance == Some(0)
    ensures p.inflight > 0 && result.Some? ==> r.balance == result
    ensures r.requests == p.requests && r.intervals == p.intervals
  {
    if p.inflight == 0 then p
    else p.(balance := Some(if result.Some? then result.value else 0), loading := false, inflight := p.inflight - 1)
  }

  /** Outstanding fetches settling one after another, in the order given. */
  function ResolveAll(p: Poll, results: seq<Option<int>>): Poll
    decreases |results|
  {
    if results == [] then p else Resolve(ResolveAll(p, results[..|results| - 1]), results[|results| - 1])
  }

  /**
    Fetches are not cancelled, so whichever settles last decides the balance:
    after `k` outstanding fetches settle, `k` fewer are outstanding, loading is
    off, and the balance is the last result (0 for a failure), whatever came
    before. No request is issued or interval touched.
  */
  lemma {:induction false} LastSettledWins(p: Poll, results: seq<Option<int>>)
    requires 0 < |results| <= p.inflight
    ensures var r := ResolveAll(p, results);
            var last := results[|results| - 1];
            && r.inflight == p.inflight - |results|
            && !r.loading
            && r.balance == Some(if last.Some? then last.value else 0)
            && r.requests == p.requests && r.intervals == p.intervals
    decreases |results|
  {
    if |results| > 1 {
      LastSettledWins(p, results[..|results| - 1]);
    }
  }

  /** Unmounting runs the effect's cleanup: the interval the last run installed is cleared. */
  function Unmount(p: Poll): (r: Poll)
    ensures forall i :: 0 <= i < |r.intervals| ==> r.intervals[i].id != p.current
    ensures forall iv :: iv in r.intervals ==> iv in p.intervals
    ensures r.requests == p.requests
  {
    p.(intervals := Clear(p.intervals, p.current))
  }

  /** `n` one-millisecond ticks after time `now`. */
  function Ticks(p: Poll, now: nat, n: nat): Poll
    decreases n
  {
    if n == 0 then p else Tick(Ticks(p, now, n - 1), now + n)
  }

  /** With no interval installed (after unmount) no request is ever issued again. */
  lemma {:induction false} NoFetchWithoutInterval(p: Poll, now: nat, n: nat)
    requires p.intervals == []
    ensures Ticks(p, now, n) == p
    decreases n
  {
    if n > 0 {
      NoFetchWithoutInterval(p, now, n - 1);
    }
  }

  /** Division facts about one more millisecond of the interval's cadence. */
  lemma CadenceArith(m: nat)
    ensures (m + 1) % Period == 0 ==> (m + 1) / Period == m / Period + 1 && m + 1 == Period * (m / Period + 1)
    ensures (m + 1) % Period != 0 ==> (m + 1) / Period == m / Period && m + 1 < Period * (m / Period + 1)
  {
    var q, s := m / Period, m % Period;
    assert m == Period * q + s && 0 <= s < Period;
    if s == Period - 1 {
      assert m + 1 == Period * (q + 1);
    } else {
      assert m + 1 == Period * q + (s + 1);
    }
  }

  /**
    With exactly one interval installed, bound to a key and a connection and
    first due at `t + 5000`, `m` ticks after `t` exactly `m / 5000` further
    requests have been issued, all for that key, and the interval is due at
    the next multiple of the period.
  */
  lemma {:induction false} Cadence(q: Poll, t: nat, m: nat)
    requires CanFetch(q.deps) && |q.intervals| == 1
    requires q.intervals[0].deps == q.deps && q.intervals[0].nextDue == t + Period
    ensures var r := Ticks(q, t, m);
            && |r.requests| == |q.requests| + m / Period
            && r.requests[..|q.requests|] == q.requests
            && (forall k :: |q.requests| <= k < |r.requests| ==> r.requests[k] == q.deps.key.value)
            && r.intervals == [Interval(q.intervals[0].id, q.deps, t + Period * (m / Period + 1))]
    decreases m
  {
    if m > 0 {
      Cadence(q, t, m - 1);
      CadenceStep(q, t, m);
    }
  }

  /** One millisecond of `Cadence`: the facts for `m - 1` ticks carry over to `m`. */
  lemma CadenceStep(q: Poll, t: nat, m: nat)
    requires m > 0 && CanFetch(q.deps) && |q.intervals| == 1
    requires var prev := Ticks(q, t, m - 1);
             && |prev.requests| == |q.requests| + (m - 1) / Period
             && prev.requests[..|q.requests|] == q.requests
             && (forall k :: |q.requests| <= k < |prev.requests| ==> prev.requests[k] == q.deps.key.value)
             && prev.intervals == [Interval(q.intervals[0].id, q.deps, t + Period * ((m - 1) / Period + 1))]
    ensures var r := Ticks(q, t, m);
            && |r.requests| == |q.requests| + m / Period
            && r.requests[..|q.requests|] == q.requests
            && (forall k :: |q.requests| <= k < |r.requests| ==> r.requests[k] == q.deps.key.value)
            && r.intervals == [Interval(q.intervals[0].id, q.deps, t + Period * (m / Period + 1))]
  {
    var prev := Ticks(q, t, m - 1);
    var r := Ticks(q, t, m);
    assert r == Tick(prev, t + m);
    TickOneKey(prev, t + m);
    var iv := prev.intervals[0];
    CadenceDue(t, m, iv.nextDue);
    var key := q.deps.key.value;
    var extra: seq<string> := if iv.nextDue <= t + m then [key] else [];
    assert r.requests == prev.requests + extra;
    ExtendLog(q.requests, prev.requests, extra, key);
  }

  /** When the interval that was due at the next multiple before millisecond `m` fires, and where it moves. */
  lemma CadenceDue(t: nat, m: nat, due: nat)
    requires m > 0 && due == t + Period * ((m - 1) / Period + 1)
    ensures due <= t + m <==> m % Period == 0
    ensures due <= t + m ==> m / Period == (m - 1) / Period + 1 && due + Period == t + Period * (m / Period + 1)
    ensures due > t + m ==> m / Period == (m - 1) / Period && due == t + Period * (m / Period + 1)
  {
    CadenceArith(m - 1);
  }

  /** A log that extends `base` with copies of `key` still does after more copies are appended. */
  lemma ExtendLog(base: seq<string>, a: seq<string>, extra: seq<string>, key: string)
    requires |base| <= |a| && a[..|base|] == base
    requires forall k :: |base| <= k < |a| ==> a[k] == key
    requires forall k :: 0 <= k < |extra| ==> extra[k] == key
    ensures (a + extra)[..|base|] == base
    ensures forall k :: |base| <= k < |a + extra| ==> (a + extra)[k] == key
  {
    assert (a + extra)[..|base|] == a[..|base|];
  }

  /** One tick with a single interval bound to a key: one request for that key exactly when it is due. */
  lemma TickOneKey(p: Poll, now: nat)
    requires |p.intervals| == 1 && CanFetch(p.intervals[0].deps)
    ensures var iv, r := p.intervals[0], Tick(p, now);
            && r.requests == p.requests + (if iv.nextDue <= now then [iv.deps.key.value] else [])
            && r.intervals == [Reschedule(iv, now)]
  {
    TickOne(p, now);
  }

  /**
    A change of key, from a poller whose installed intervals all belong to
    the last effect run: that interval is cleared, so no request for the old
    key follows; one fetch runs now and then one every 5000 ms, all for the
    new key.
  */
  lemma PollsNewKey(p: Poll, d: Deps, t: nat, m: nat)
    requires d != p.deps && CanFetch(d)
    requires forall i :: 0 <= i < |p.intervals| ==> p.intervals[i].id == p.current
    ensures var r := Ticks(Change(p, d, t), t, m);
            && |r.requests| == |p.requests| + 1 + m / Period
            && r.requests[..|p.requests|] == p.requests
            && (forall k :: |p.requests| <= k < |r.requests| ==> r.requests[k] == d.key.value)
  {
    var q := Change(p, d, t);
    ClearAllOwn(p.intervals, p.current);
    assert q.intervals == [Interval(p.current + 1, d, t + Period)];
    Cadence(q, t, m);
    var r := Ticks(q, t, m);
    assert r.requests[..|q.requests|] == q.requests;
    assert q.requests[..|p.requests|] == p.requests;
  }
}

=== FILE: catalog.dfy ===
/**
  The wallet catalog of the connect-wallet dialog: the static display table
  keyed by adapter name and the classifier that splits the adapter list into
  the three ordered sections "Installed", "Popular" and "More".
*/
module Catalog {

  /** The adapter's ready state as the wallet adapter library reports it. */
  datatype ReadyState = Installed | NotDetected | Loadable | Unsupported

  datatype Category = Popular | More

  /** Curated display information for one adapter name (the icon is markup and is not modelled). */
  datatype Display = Display(id: string, name: string, category: Category)

  /** One entry of the adapter list as the wallet context exposes it. */
  datatype Wallet = Wallet(name: string, readyState: ReadyState)

  /** A wallet joined with its display information. */
  datatype Entry = Entry(wallet: Wallet, display: Display)

  datatype Buckets = Buckets(installed: seq<Entry>, popular: seq<Entry>, more: seq<Entry>)

  /** Names one of the three sections. */
  datatype Section = InstalledSection | PopularSection | MoreSection

  /** The static display table. Note the id of "Avana" really is "avane". */
  function DisplayMap(): (r: map<string, Display>)
    ensures r.Keys == {"Phantom", "Solflare", "Avana", "Alpha", "Coinbase Wallet"}
    ensures forall k :: k in r ==> (r[k].category == Popular <==> k == "Phantom" || k == "Solflare")
    ensures forall k :: k in r ==> r[k].name == (if k == "Coinbase Wallet" then "Coinbase" else k)
  {
    map[
      "Phantom" := Display("phantom", "Phantom", Popular),
      "Solflare" := Display("solflare", "Solflare", Popular),
      "Avana" := Display("avane", "Avana", More),
      "Alpha" := Display("alpha", "Alpha", More),
      "Coinbase Wallet" := Display("coinbase", "Coinbase", More)
    ]
  }

  /** Whether an entry is listed in a section. */
  predicate Belongs(e: Entry, s: Section)
  {
    match s
    case InstalledSection => e.wallet.readyState == Installed
    case PopularSection => e.display.category == Popular
    case MoreSection => e.display.category != Popular
  }

  /** The entries of the wallets that have a display entry, in input order. */
  function Known(ws: seq<Wallet>, dm: map<string, Display>): seq<Entry>
    decreases |ws|
  {
    if ws == [] then []
    else
      var w := ws[|ws| - 1];
      Known(ws[..|ws| - 1], dm) + (if w.name in dm then [Entry(w, dm[w.name])] else [])
  }

  /** Reference definition of one section: the known wallets that belong to it, in input order. */
  function Select(ws: seq<Wallet>, dm: map<string, Display>, s: Section): seq<Entry>
    decreases |ws|
  {
    if ws == [] then []
    else
      var w := ws[|ws| - 1];
      Select(ws[..|ws| - 1], dm, s)
      + (if w.name in dm && Belongs(Entry(w, dm[w.name]), s) then [Entry(w, dm[w.name])] else [])
  }

  /**
    The classifier: one pass over the adapter list that drops unknown names,
    pushes installed wallets to `installed`, and pushes every known wallet to
    exactly one of `popular` / `more` by its display category.
  */
  method Classify(ws: seq<Wallet>, dm: map<string, Display>) returns (r: Buckets)
    ensures r.installed == Select(ws, dm, InstalledSection)
    ensures r.popular == Select(ws, dm, PopularSection)
    ensures r.more == Select(ws, dm, MoreSection)
  {
    var installed: seq<Entry> := [];
    var popular: seq<Entry> := [];
    var more: seq<Entry> := [];
    var i := 0;
    while i < |ws|
      invariant 0 <= i <= |ws|
      invariant installed == Select(ws[..i], dm, InstalledSection)
      invariant popular == Select(ws[..i], dm, PopularSection)
      invariant more == Select(ws[..i], dm, MoreSection)
    {
      var w := ws[i];
      assert ws[..i + 1][..i] == ws[..i];
      if w.name in dm {
        var e := Entry(w, dm[w.name]);
        if w.readyState == Installed {
          installed := installed + [e];
        }
        if e.display.category == Popular {
          popular := popular + [e];
        } else {
          more := more + [e];
        }
      }
      i := i + 1;
    }
    assert ws[..i] == ws;
    r := Buckets(installed, popular, more);
  }

  /** The "Installed" section as the status machine consults it. */
  function InstalledOf(ws: seq<Wallet>): seq<Entry>
  {
    Select(ws, DisplayMap(), InstalledSection)
  }

  /** Every entry of a section carries a known name and that name's display information. */
  lemma {:induction false} SelectOnlyKnown(ws: seq<Wallet>, dm: map<string, Display>, s: Section)
    ensures forall e :: e in Select(ws, dm, s) ==>
              e.wallet.name in dm && e.display == dm[e.wallet.name] && Belongs(e, s) && e.wallet in ws
    decreases |ws|
  {
    if ws != [] {
      var init := ws[..|ws| - 1];
      SelectOnlyKnown(init, dm, s);
      assert forall w :: w in init ==> w in ws;
    }
  }

  /** A wallet whose name has no display entry appears in no section. */
  lemma UnknownDropped(ws: seq<Wallet>, dm: map<string, Display>, w: Wallet, s: Section)
    requires w.name !in dm
    ensures forall e :: e in Select(ws, dm, s) ==> e.wallet != w
  {
    SelectOnlyKnown(ws, dm, s);
  }

  /** A known wallet of the input is listed in a section exactly when it belongs to it. */
  lemma {:induction false} SelectComplete(ws: seq<Wallet>, dm: map<string, Display>, s: Section, i: int)
    requires 0 <= i < |ws| && ws[i].name in dm
    ensures Entry(ws[i], dm[ws[i].name]) in Select(ws, dm, s) <==> Belongs(Entry(ws[i], dm[ws[i].name]), s)
    decreases |ws|
  {
    SelectOnlyKnown(ws, dm, s);
    var e := Entry(ws[i], dm[ws[i].name]);
    if Belongs(e, s) {
      var init := ws[..|ws| - 1];
      if i < |ws| - 1 {
        assert init[i] == ws[i];
        SelectComplete(init, dm, s, i);
      }
    }
  }

  /** A known wallet is in "Installed" iff its ready state is Installed. */
  lemma InstalledIff(ws: seq<Wallet>, dm: map<string, Display>, i: int)
    requires 0 <= i < |ws| && ws[i].name in dm
    ensures Entry(ws[i], dm[ws[i].name]) in Select(ws, dm, InstalledSection) <==> ws[i].readyState == Installed
  {
    SelectComplete(ws, dm, InstalledSection, i);
  }

  /**
    A known wallet is in exactly one of "Popular" and "More", chosen by its
    display category, whether or not it is installed.
  */
  lemma CategoryExclusive(ws: seq<Wallet>, dm: map<string, Display>, i: int)
    requires 0 <= i < |ws| && ws[i].name in dm
    ensures Entry(ws[i], dm[ws[i].name]) in Select(ws, dm, PopularSection) <==> dm[ws[i].name].category == Popular
    ensures Entry(ws[i], dm[ws[i].name]) in Select(ws, dm, MoreSection) <==> dm[ws[i].name].category == More
  {
    SelectComplete(ws, dm, PopularSection, i);
    SelectComplete(ws, dm, MoreSection, i);
  }

  /** The last wallet of the input lands in exactly one of "Popular" and "More" when it is known, and in neither otherwise. */
  lemma PartitionLast(ws: seq<Wallet>, dm: map<string, Display>)
    requires ws != []
    ensures var init, w := ws[..|ws| - 1], ws[|ws| - 1];
            var tail := if w.name in dm then [Entry(w, dm[w.name])] else [];
            && Known(ws, dm) == Known(init, dm) + tail
            && multiset(Select(ws, dm, PopularSection)) + multiset(Select(ws, dm, MoreSection))
               == multiset(Select(init, dm, PopularSection)) + multiset(Select(init, dm, MoreSection)) + multiset(tail)
  {
    var init, w := ws[..|ws| - 1], ws[|ws| - 1];
    var tail := if w.name in dm then [Entry(w, dm[w.name])] else [];
    if w.name in dm && dm[w.name].category == Popular {
      assert Select(ws, dm, PopularSection) == Select(init, dm, PopularSection) + tail;
      assert Select(ws, dm, MoreSection) == Select(init, dm, MoreSection);
    } else {
      assert Select(ws, dm, PopularSection) == Select(init, dm, PopularSection);
      assert Select(ws, dm, MoreSection) == Select(init, dm, MoreSection) + tail;
    }
  }

  /** "Popular" and "More" partition the known wallets: as multisets they add up to them, so do their sizes. */
  lemma {:induction false} PopularMorePartition(ws: seq<Wallet>, dm: map<string, Display>)
    ensures multiset(Select(ws, dm, PopularSection)) + multiset(Select(ws, dm, MoreSection)) == multiset(Known(ws, dm))
    ensures |Select(ws, dm, PopularSection)| + |Select(ws, dm, MoreSection)| == |Known(ws, dm)|
    decreases |ws|
  {
    var p, m, k := Select(ws, dm, PopularSection), Select(ws, dm, MoreSection), Known(ws, dm);
    if ws != [] {
      PopularMorePartition(ws[..|ws| - 1], dm);
      PartitionLast(ws, dm);
    }
    assert |multiset(p) + multiset(m)| == |multiset(k)|;
  }

  /** `idx` lists, strictly increasing, the input positions the entries `es` were taken from. */
  ghost predicate TakenInOrder(es: seq<Entry>, ws: seq<Wallet>, idx: seq<int>)
  {
    && |idx| == |es|
    && (forall k :: 0 <= k < |idx| ==> 0 <= idx[k] < |ws| && es[k].wallet == ws[idx[k]])
    && (forall k, l :: 0 <= k < l < |idx| ==> idx[k] < idx[l])
  }

  /** Each section is a subsequence of the input, in input order. */
  lemma {:induction false} SelectInInputOrder(ws: seq<Wallet>, dm: map<string, Display>, s: Section)
    ensures exists idx :: TakenInOrder(Select(ws, dm, s), ws, idx)
    decreases |ws|
  {
    if ws == [] {
      assert TakenInOrder(Select(ws, dm, s), ws, []);
    } else {
      var n := |ws| - 1;
      var init := ws[..n];
      SelectInInputOrder(init, dm, s);
      var idx :| TakenInOrder(Select(init, dm, s), init, idx);
      var w := ws[n];
      if w.name in dm && Belongs(Entry(w, dm[w.name]), s) {
        assert TakenInOrder(Select(ws, dm, s), ws, idx + [n]);
      } else {
        assert TakenInOrder(Select(ws, dm, s), ws, idx);
      }
    }
  }

  /** The adapter list of the wallet provider with Phantom installed and Solflare not detected. */
  lemma PhantomSolflareExample()
    ensures Select([Wallet("Phantom", Installed), Wallet("Solflare", NotDetected)], DisplayMap(), InstalledSection)
            == [Entry(Wallet("Phantom", Installed), Display("phantom", "Phantom", Popular))]
    ensures Select([Wallet("Phantom", Installed), Wallet("Solflare", NotDetected)], DisplayMap(), MoreSection) == []
    ensures Select([Wallet("Phantom", Installed), Wallet("Solflare", NotDetected)], DisplayMap(), PopularSection)
            == [Entry(Wallet("Phantom", Installed), Display("phantom", "Phantom", Popular)),
                Entry(Wallet("Solflare", NotDetected), Display("solflare", "Solflare", Popular))]
  {
    var ws := [Wallet("Phantom", Installed), Wallet("Solflare", NotDetected)];
    assert ws[..1] == [Wallet("Phantom", Installed)];
    assert ws[..1][..0] == [];
  }
}

=== FILE: common.dfy ===
/** Small shared wrapper types. */
module Common {

  /** A value that may be absent (a JavaScript `null` / `undefined`). */
  datatype Option<+T> = None | Some(value: T)
}

=== FILE: connect_wallet.dfy ===
/**
  The connect-wallet dialog: the connection status effect, written as an
  explicit step over the externally observed wallet signals, and the dialog's
  handlers (open, close, wallet click, Continue, Try Again) as events.
*/
module ConnectWallet {
  import opened Common
  import opened Catalog

  datatype Status = Idle | Connecting | Connected | Retry

  /** The dialog's own state: the selected adapter name and the displayed status. */
  datatype Attempt = Attempt(selected: Option<string>, status: Status)

  /** The wallet context's signals, owned by the adapter library and only observed here. */
  datatype Signals = Signals(connecting: bool, connected: bool, hasPublicKey: bool)

  /** The state every reset returns to: nothing selected, status idle. */
  const Reset: Attempt := Attempt(None, Idle)

  /** JavaScript truthiness of the selected name: both `null` and `""` count as nothing selected. */
  predicate HasSelection(a: Attempt)
  {
    a.selected.Some? && a.selected.value != ""
  }

  /** Whether some wallet of the "Installed" section has exactly this adapter name. */
  predicate IsInstalledName(installed: seq<Entry>, name: string)
  {
    exists i :: 0 <= i < |installed| && installed[i].wallet.name == name
  }

  /** The status effect acts only for a selection naming an installed wallet. */
  predicate Tracks(a: Attempt, installed: seq<Entry>)
  {
    HasSelection(a) && IsInstalledName(installed, a.selected.value)
  }

  /**
    One run of the status effect. It never touches the selection; it does
    nothing unless the selection names an installed wallet; the busy signal
    forces Connecting; Connected and Retry are entered only from Connecting.
  */
  function Step(a: Attempt, sig: Signals, installed: seq<Entry>): (r: Attempt)
    ensures r.selected == a.selected
    ensures !Tracks(a, installed) ==> r == a
    ensures Tracks(a, installed) && sig.connecting ==> r.status == Connecting
    ensures r.status == Connected && a.status != Connected ==>
              a.status == Connecting && sig.connected && sig.hasPublicKey && Tracks(a, installed)
    ensures Tracks(a, installed) && a.status == Connecting && !sig.connecting && sig.connected && sig.hasPublicKey ==>
              r.status == Connected
    ensures r.status == Retry && a.status != Retry ==>
              a.status == Connecting && !sig.connecting && !sig.connected && !sig.hasPublicKey && Tracks(a, installed)
    ensures Tracks(a, installed) && a.status == Connecting && !sig.connecting && !sig.connected && !sig.hasPublicKey ==>
              r.status == Retry
    ensures a.status != Connecting && !sig.connecting ==> r == a
    ensures Tracks(a, installed) && !sig.connecting && sig.connected != sig.hasPublicKey ==> r == a
  {
    if !HasSelection(a) then a
    else if !IsInstalledName(installed, a.selected.value) then a
    else if sig.connecting then a.(status := Connecting)
    else if sig.connected && sig.hasPublicKey && a.status == Connecting then a.(status := Connected)
    else if !sig.connecting && !sig.connected && a.status == Connecting && !sig.hasPublicKey then a.(status := Retry)
    else a
  }

  /** The effect re-run `n` times on its own output with the signals unchanged. */
  function Iterate(a: Attempt, sig: Signals, installed: seq<Entry>, n: nat): Attempt
    decreases n
  {
    if n == 0 then a else Iterate(Step(a, sig, installed), sig, installed, n - 1)
  }

  /**
    The effect depends on its own output, so React re-runs it; with the
    signals unchanged every re-run after the first is a no-op.
  */
  lemma {:induction false} IterateSettles(a: Attempt, sig: Signals, installed: seq<Entry>, n: nat)
    requires n >= 1
    ensures Iterate(a, sig, installed, n) == Step(a, sig, installed)
    ensures Step(Step(a, sig, installed), sig, installed) == Step(a, sig, installed)
    decreases n
  {
    var b := Step(a, sig, installed);
    assert Step(b, sig, installed) == b;
    if n > 1 {
      IterateSettles(b, sig, installed, n - 1);
    }
  }

  /** The dialog: whether the modal is open, and the attempt it shows. */
  datatype Ui = Ui(modalOpen: bool, attempt: Attempt)

  /** What the component reads from the wallet context at the moment of an event. */
  datatype Env = Env(wallets: seq<Wallet>, sig: Signals)

  datatype Event =
    | OpenModal              // the "Connect Wallet" button
    | CloseModal             // the close button or the backdrop
    | ClickWallet(e: Entry)  // a wallet button in one of the three sections
    | Continue               // shown in the Connected view
    | TryAgain               // shown in the Retry view
    | Observe                // the wallet context's signals or adapter list changed

  /** The next dialog state and the adapter name passed to `select`, if it was called. */
  datatype Outcome = Outcome(ui: Ui, selectCall: Option<string>)

  const Init: Ui := Ui(false, Reset)

  /** Whether a wallet button for `e` is on screen in one of the three sections. */
  predicate Listed(ws: seq<Wallet>, e: Entry)
  {
    e in Select(ws, DisplayMap(), InstalledSection)
    || e in Select(ws, DisplayMap(), PopularSection)
    || e in Select(ws, DisplayMap(), MoreSection)
  }

  /** The status effect run after a change to the selection or the signals. */
  function Settle(ui: Ui, env: Env): Ui
  {
    ui.(attempt := Step(ui.attempt, env.sig, InstalledOf(env.wallets)))
  }

  /**
    The status panel for status `st` is on screen: the dialog is open, the
    selection names an installed wallet and the status is `st`. Continue is a
    button of the Connected panel and Try Again one of the Retry panel.
  */
  predicate PanelShows(ui: Ui, env: Env, st: Status)
  {
    ui.modalOpen && Tracks(ui.attempt, InstalledOf(env.wallets)) && ui.attempt.status == st
  }

  /**
    One dialog event. The wallet buttons exist only while the modal is open;
    clicking one that is not installed does nothing, clicking an installed one
    records its name, calls `select` with that same name and keeps the dialog
    open, leaving the status to the effect. Closing, and Continue on the
    Connected panel, return to a closed dialog with nothing selected and
    idle; Try Again on the Retry panel returns to nothing selected and idle
    without calling `select` again. A button that is not on screen cannot be
    pressed.
  */
  function Handle(ui: Ui, ev: Event, env: Env): (r: Outcome)
    ensures ev.OpenModal? ==> r == Outcome(ui.(modalOpen := true), None)
    ensures ev.CloseModal? ==> r == Outcome(Ui(false, Reset), None)
    ensures ev.Continue? && PanelShows(ui, env, Connected) ==> r == Outcome(Ui(false, Reset), None)
    ensures ev.TryAgain? && PanelShows(ui, env, Retry) ==> r == Outcome(Ui(true, Reset), None)
    ensures ev.Continue? && !PanelShows(ui, env, Connected) ==> r == Outcome(ui, None)
    ensures ev.TryAgain? && !PanelShows(ui, env, Retry) ==> r == Outcome(ui, None)
    ensures ev.Observe? ==> r == Outcome(ui.(attempt := Step(ui.attempt, env.sig, InstalledOf(env.wallets))), None)
    ensures ev.ClickWallet? && ev.e.wallet.readyState != Installed ==> r == Outcome(ui, None)
    ensures ev.ClickWallet? && !(ui.modalOpen && Listed(env.wallets, ev.e)) ==> r == Outcome(ui, None)
    ensures ev.ClickWallet? && ui.modalOpen && Listed(env.wallets, ev.e) && ev.e.wallet.readyState == Installed ==>
              && r.ui.modalOpen && r.selectCall == Some(ev.e.wallet.name)
              && r.ui.attempt == Step(ui.attempt.(selected := Some(ev.e.wallet.name)), env.sig, InstalledOf(env.wallets))
              && r.ui.attempt.selected == Some(ev.e.wallet.name)
    ensures r.selectCall.Some? ==> ev.ClickWallet? && r.selectCall == Some(ev.e.wallet.name) && ev.e.wallet.readyState == Installed
    ensures ev.Observe? || r.selectCall.Some? ==>
              Step(r.ui.attempt, env.sig, InstalledOf(env.wallets)) == r.ui.attempt
    ensures r.ui.attempt.status == Connected && ui.attempt.status != Connected ==> ui.attempt.status == Connecting
  {
    match ev
    case OpenModal => Outcome(ui.(modalOpen := true), None)
    case CloseModal => Outcome(Ui(false, Reset), None)
    case ClickWallet(e) =>
      if ui.modalOpen && Listed(env.wallets, e) && e.wallet.readyState == Installed then
        IterateSettles(ui.attempt.(selected := Some(e.wallet.name)), env.sig, InstalledOf(env.wallets), 1);
        Outcome(Settle(ui.(attempt := ui.attempt.(selected := Some(e.wallet.name))), env), Some(e.wallet.name))
      else Outcome(ui, None)
    case Continue => if PanelShows(ui, env, Connected) then Outcome(Ui(false, Reset), None) else Outcome(ui, None)
    case TryAgain => if PanelShows(ui, env, Retry) then Outcome(ui.(attempt := Reset), None) else Outcome(ui, None)
    case Observe =>
      IterateSettles(ui.attempt, env.sig, InstalledOf(env.wallets), 1);
      Outcome(Settle(ui, env), None)
  }

  datatype Input = Input(ev: Event, env: Env)

  /** The dialog after a sequence of events. */
  function Run(ui: Ui, inputs: seq<Input>): Ui
    decreases |inputs|
  {
    if inputs == [] then ui
    else
      var last := inputs[|inputs| - 1];
      Handle(Run(ui, inputs[..|inputs| - 1]), last.ev, last.env).ui
  }

  /**
    What holds in every reachable dialog state: a closed dialog shows nothing
    selected and idle, and a non-idle status always has a selection.
  */
  ghost predicate Inv(ui: Ui)
  {
    && (!ui.modalOpen ==> ui.attempt == Reset)
    && (ui.attempt.status != Idle ==> HasSelection(ui.attempt))
  }

  lemma HandleKeepsInv(ui: Ui, ev: Event, env: Env)
    requires Inv(ui)
    ensures Inv(Handle(ui, ev, env).ui)
  {
    if ev.ClickWallet? && ui.modalOpen && Listed(env.wallets, ev.e) && ev.e.wallet.readyState == Installed {
      SelectOnlyKnown(env.wallets, DisplayMap(), InstalledSection);
      SelectOnlyKnown(env.wallets, DisplayMap(), PopularSection);
      SelectOnlyKnown(env.wallets, DisplayMap(), MoreSection);
      assert "" !in DisplayMap();
    }
  }

  lemma {:induction false} RunKeepsInv(inputs: seq<Input>)
    ensures Inv(Run(Init, inputs))
    decreases |inputs|
  {
    if inputs != [] {
      var last := inputs[|inputs| - 1];
      RunKeepsInv(inputs[..|inputs| - 1]);
      HandleKeepsInv(Run(Init, inputs[..|inputs| - 1]), last.ev, last.env);
    }
  }

  /** Connected is never reported without an earlier Connecting in the same run. */
  lemma {:induction false} ConnectedOnlyAfterConnecting(inputs: seq<Input>)
    ensures Run(Init, inputs).attempt.status == Connected ==>
              exists k :: 0 <= k < |inputs| && Run(Init, inputs[..k]).attempt.status == Connecting
    decreases |inputs|
  {
    if inputs != [] && Run(Init, inputs).attempt.status == Connected {
      var n := |inputs| - 1;
      var prefix := inputs[..n];
      if Run(Init, prefix).attempt.status == Connected {
        ConnectedOnlyAfterConnecting(prefix);
        var k :| 0 <= k < |prefix| && Run(Init, prefix[..k]).attempt.status == Connecting;
        assert prefix[..k] == inputs[..k];
      } else {
        assert Run(Init, inputs[..n]).attempt.status == Connecting;
      }
    }
  }

  /**
    With Phantom installed: clicking it calls `select("Phantom")`, the busy
    signal shows Connecting, and connected-with-key then shows Connected.
  */
  lemma PhantomConnects()
    ensures
      var ws := [Wallet("Phantom", Installed)];
      var phantom := Entry(Wallet("Phantom", Installed), DisplayMap()["Phantom"]);
      var o1 := Handle(Ui(true, Reset), ClickWallet(phantom), Env(ws, Signals(true, false, false)));
      var o2 := Handle(o1.ui, Observe, Env(ws, Signals(false, true, true)));
      && o1.selectCall == Some("Phantom")
      && o1.ui.attempt == Attempt(Some("Phantom"), Connecting)
      && o2.ui.attempt == Attempt(Some("Phantom"), Connected)
  {
    var ws := [Wallet("Phantom", Installed)];
    var phantom := Entry(Wallet("Phantom", Installed), DisplayMap()["Phantom"]);
    assert ws[..0] == [];
    assert Select(ws, DisplayMap(), InstalledSection) == [phantom];
    assert InstalledOf(ws)[0].wallet.name == "Phantom";
    assert IsInstalledName(InstalledOf(ws), "Phantom");
  }

  /**
    A cancelled request shows Retry, and Try Again goes back to nothing
    selected and idle without calling `select` again.
  */
  lemma PhantomCancelled()
    ensures
      var ws := [Wallet("Phantom", Installed)];
      var phantom := Entry(Wallet("Phantom", Installed), DisplayMap()["Phantom"]);
      var o1 := Handle(Ui(true, Reset), ClickWallet(phantom), Env(ws, Signals(true, false, false)));
      var o2 := Handle(o1.ui, Observe, Env(ws, Signals(false, false, false)));
      var o3 := Handle(o2.ui, TryAgain, Env(ws, Signals(false, false, false)));
      && o2.ui.attempt == Attempt(Some("Phantom"), Retry)
      && o3.ui == Ui(true, Reset)
      && o3.selectCall == None
  {
    var ws := [Wallet("Phantom", Installed)];
    var phantom := Entry(Wallet("Phantom", Installed), DisplayMap()["Phantom"]);
    assert ws[..0] == [];
    assert Select(ws, DisplayMap(), InstalledSection) == [phantom];
    assert InstalledOf(ws)[0].wallet.name == "Phantom";
    assert IsInstalledName(InstalledOf(ws), "Phantom");
  }
}

=== FILE: copy_feedback.dfy ===
/**
  The dropdown's copy button: writes the full address to the clipboard, shows
  the "copied" check mark, and schedules a reset 2000 ms later. Each press
  schedules its own reset and no earlier reset is cancelled. Time is a
  discrete clock in milliseconds; a pending reset is kept as its due time.
*/
module CopyFeedback {
  import opened Common

  const ResetDelay: nat := 2000

  /** The `copied` flag, the due times of the pending resets, and the last text written to the clipboard. */
  datatype Copy = Copy(copied: bool, timers: seq<nat>, clipboard: Option<string>)

  const Init: Copy := Copy(false, [], None)

  /**
    A press of the copy button at time `now`. Without a public key nothing
    happens. When the clipboard write is refused the handler stops at the
    failed `await`, before the flag is set.
  */
  function CopyAddress(c: Copy, now: nat, key: Option<string>, writeOk: bool): (r: Copy)
    ensures key.None? || !writeOk ==> r == c
    ensures key.Some? && writeOk ==> r.copied && r.clipboard == key
    ensures key.Some? && writeOk ==> r.timers == c.timers + [now + ResetDelay]
  {
    if key.Some? && writeOk then Copy(true, c.timers + [now + ResetDelay], key) else c
  }

  /** The resets still pending at time `now`, in scheduling order. */
  function Pending(ts: seq<nat>, now: nat): (r: seq<nat>)
    ensures forall t :: t in r <==> t in ts && t > now
    decreases |ts|
  {
    if ts == [] then []
    else (if ts[0] > now then [ts[0]] else []) + Pending(ts[1..], now)
  }

  predicate AnyDue(ts: seq<nat>, now: nat)
  {
    exists i :: 0 <= i < |ts| && ts[i] <= now
  }

  /** The clock reaches `now`: every reset due by then fires and clears the flag. */
  function Fire(c: Copy, now: nat): (r: Copy)
    ensures AnyDue(c.timers, now) ==> !r.copied
    ensures !AnyDue(c.timers, now) ==> r == c
    ensures !c.copied ==> !r.copied
    ensures forall t :: t in r.timers <==> t in c.timers && t > now
    ensures r.clipboard == c.clipboard
  {
    if AnyDue(c.timers, now) then
      Copy(false, Pending(c.timers, now), c.clipboard)
    else
      assert forall t :: t in c.timers ==> t > now;
      assert Pending(c.timers, now) == c.timers by { PendingAllLater(c.timers, now); }
      c
  }

  lemma {:induction false} PendingAllLater(ts: seq<nat>, now: nat)
    requires forall t :: t in ts ==> t > now
    ensures Pending(ts, now) == ts
    decreases |ts|
  {
    if ts != [] {
      assert ts[0] in ts;
      assert forall t :: t in ts[1..] ==> t in ts;
      PendingAllLater(ts[1..], now);
    }
  }

  /** `n` one-millisecond ticks after time `now`. */
  function Advance(c: Copy, now: nat, n: nat): Copy
    decreases n
  {
    if n == 0 then c else Fire(Advance(c, now, n - 1), now + n)
  }

  /** A cleared flag stays cleared while time passes without presses. */
  lemma {:induction false} StaysCleared(c: Copy, now: nat, n: nat)
    requires !c.copied
    ensures !Advance(c, now, n).copied
    decreases n
  {
    if n > 0 {
      StaysCleared(c, now, n - 1);
    }
  }

  /** While no reset falls due, time passing changes nothing. */
  lemma {:induction false} QuietWhileNothingDue(c: Copy, now: nat, n: nat)
    requires forall t :: t in c.timers ==> t > now + n
    ensures Advance(c, now, n) == c
    decreases n
  {
    if n > 0 {
      QuietWhileNothingDue(c, now, n - 1);
      assert forall i :: 0 <= i < |c.timers| ==> c.timers[i] in c.timers;
      assert !AnyDue(c.timers, now + n);
    }
  }

  /** Once a reset is due within the window, the flag is clear at its end. */
  lemma {:induction false} ClearedByDueReset(c: Copy, now: nat, n: nat, t: nat)
    requires t in c.timers && now < t <= now + n
    ensures !Advance(c, now, n).copied
    decreases n
  {
    if t == now + n {
      var before := Advance(c, now, n - 1);
      TimerSurvives(c, now, n - 1, t);
      assert AnyDue(before.timers, now + n) by {
        var i :| 0 <= i < |before.timers| && before.timers[i] == t;
      }
    } else {
      ClearedByDueReset(c, now, n - 1, t);
      StaysCleared(Advance(c, now, n - 1), now + n - 1, 1);
    }
  }

  /** A reset that is not yet due is still pending. */
  lemma {:induction false} TimerSurvives(c: Copy, now: nat, n: nat, t: nat)
    requires t in c.timers && t > now + n
    ensures t in Advance(c, now, n).timers
    decreases n
  {
    if n > 0 {
      TimerSurvives(c, now, n - 1, t);
    }
  }

  /**
    After a successful press the check mark stays for the whole 2000 ms
    window, unless an earlier press's reset falls inside it, and it is gone
    once the window ends.
  */
  lemma CopiedForTwoSeconds(c: Copy, now: nat, key: string, n: nat)
    requires forall t :: t in c.timers ==> t > now + n
    ensures n < ResetDelay ==> Advance(CopyAddress(c, now, Some(key), true), now, n).copied
    ensures n >= ResetDelay ==> !Advance(CopyAddress(c, now, Some(key), true), now, n).copied
  {
    var c' := CopyAddress(c, now, Some(key), true);
    if n < ResetDelay {
      QuietWhileNothingDue(c', now, n);
    } else {
      ClearedByDueReset(c', now, n, now + ResetDelay);
    }
  }

  /**
    Two presses at 0 ms and 500 ms: the first press's reset is not cancelled,
    so the check mark disappears at 2000 ms although the second press was
    only 1500 ms earlier.
  */
  lemma SecondPressCutShort(key: string)
    ensures
      var first := CopyAddress(Init, 0, Some(key), true);
      var second := CopyAddress(Advance(first, 0, 500), 500, Some(key), true);
      && Advance(second, 500, 1499).copied
      && !Advance(second, 500, 1500).copied
  {
    var first := CopyAddress(Init, 0, Some(key), true);
    QuietWhileNothingDue(first, 0, 500);
    var second := CopyAddress(Advance(first, 0, 500), 500, Some(key), true);
    assert second.timers == [2000, 2500];
    QuietWhileNothingDue(second, 500, 1499);
    ClearedByDueReset(second, 500, 1500, 2000);
  }
}

=== FILE: expansion.dfy ===
/**
  The dropdown's expand/collapse controller, reduced to its discrete part:
  the expanded intent, whether the content is mounted, which timeline is in
  flight, and the geometry each timeline leaves behind. The tweened values in
  between are animation-runtime work and are not modelled; `box` and `pose`
  hold the geometry set by the last timeline that completed.
*/
module Expansion {

  /** The container's width, height and border radius in pixels. */
  datatype Box = Box(width: int, height: int, radius: int)

  /** The profile picture's translation and scale. */
  datatype Pose = Pose(x: real, y: real, scale: real)

  /** The timeline in flight, if any. */
  datatype Tween = Still | Opening | Closing

  datatype Expansion = Expansion(isExpanded: bool, showContent: bool, tween: Tween, box: Box, pose: Pose)

  /** The collapsed geometry, which is also the container's and profile's initial inline style. */
  const RestBox: Box := Box(56, 56, 9999)
  const RestPose: Pose := Pose(0.0, 0.0, 1.0)

  const OpenWidth: int := 320
  const OpenRadius: int := 12
  const OpenPose: Pose := Pose(-120.0, -38.0, 0.857)

  const Init: Expansion := Expansion(false, false, Still, RestBox, RestPose)

  /**
    The animation effect, run when `isExpanded` changes. Running tweens are
    killed first. Expanding mounts the content and starts the opening
    timeline. Collapsing with mounted content starts the closing timeline,
    which unmounts the content only when it completes; with no content
    mounted the geometry is reset at once.
  */
  function Animate(x: Expansion): (r: Expansion)
    ensures r.isExpanded == x.isExpanded
    ensures x.isExpanded ==> r.showContent && r.tween == Opening
    ensures !x.isExpanded && x.showContent ==> r.showContent && r.tween == Closing
    ensures !x.isExpanded && !x.showContent ==> r == Expansion(false, false, Still, RestBox, RestPose)
  {
    if x.isExpanded then x.(showContent := true, tween := Opening)
    else if x.showContent then x.(tween := Closing)
    else x.(showContent := false, tween := Still, box := RestBox, pose := RestPose)
  }

  /** `setIsExpanded(v)`: React re-runs the effect only when the value changes. */
  function SetExpanded(x: Expansion, v: bool): Expansion
  {
    if v == x.isExpanded then x else Animate(x.(isExpanded := v))
  }

  /**
    The closing timeline's completion handler: hide the content and restore
    the initial geometry, whatever the current intent is.
  */
  function CloseHandler(x: Expansion): (r: Expansion)
    ensures !r.showContent && r.box == RestBox && r.pose == RestPose
    ensures r.isExpanded == x.isExpanded && r.tween == x.tween
  {
    x.(showContent := false, box := RestBox, pose := RestPose)
  }

  datatype Event =
    | ContainerClick            // the round container: toggles
    | MouseDown(inside: bool)   // a document mousedown, inside the dropdown or not
    | TimelineDone(measured: int)  // the running timeline completes; `measured` is the content height read from the DOM

  /**
    One event. A container click flips `isExpanded`. The outside-click
    listener is installed only while expanded, and it only ever collapses.
    A completed opening timeline leaves the container 320 wide at the measured
    height with radius 12; a completed closing timeline unmounts the content
    and restores the initial geometry.
  */
  function Step(x: Expansion, ev: Event): (r: Expansion)
    ensures ev.ContainerClick? ==> r.isExpanded == !x.isExpanded
    ensures ev.MouseDown? ==> (r.isExpanded ==> x.isExpanded)
    ensures ev.MouseDown? && (ev.inside || !x.isExpanded) ==> r == x
    ensures ev.MouseDown? && !ev.inside ==> !r.isExpanded
    ensures ev.TimelineDone? ==> r.isExpanded == x.isExpanded
    ensures ev.TimelineDone? && x.tween == Opening ==>
              r.box == Box(OpenWidth, ev.measured, OpenRadius) && r.pose == OpenPose && r.showContent == x.showContent
    ensures ev.TimelineDone? && x.tween == Closing ==> !r.showContent && r.box == RestBox && r.pose == RestPose
  {
    match ev
    case ContainerClick => SetExpanded(x, !x.isExpanded)
    case MouseDown(inside) => if x.isExpanded && !inside then SetExpanded(x, false) else x
    case TimelineDone(measured) =>
      match x.tween
      case Still => x
      case Opening => x.(tween := Still, box := Box(OpenWidth, measured, OpenRadius), pose := OpenPose)
      case Closing => CloseHandler(x).(tween := Still)
  }

  /**
    What holds in every reachable state: expanded implies the content is
    mounted; an opening timeline runs only while expanded and a closing one
    only while collapsed with content mounted; and collapsed with nothing in
    flight means no content and exactly the initial geometry.
  */
  ghost predicate Inv(x: Expansion)
  {
    && (x.isExpanded ==> x.showContent)
    && (x.tween == Opening ==> x.isExpanded)
    && (x.tween == Closing ==> !x.isExpanded && x.showContent)
    && (!x.isExpanded && x.tween == Still ==> !x.showContent && x.box == RestBox && x.pose == RestPose)
  }

  lemma StepKeepsInv(x: Expansion, ev: Event)
    requires Inv(x)
    ensures Inv(Step(x, ev))
  {
  }

  function Run(x: Expansion, evs: seq<Event>): Expansion
    decreases |evs|
  {
    if evs == [] then x else Step(Run(x, evs[..|evs| - 1]), evs[|evs| - 1])
  }

  /** Every reachable state satisfies the invariant; in particular expanded implies content shown. */
  lemma {:induction false} Reachable(evs: seq<Event>)
    ensures Inv(Run(Init, evs))
    ensures Run(Init, evs).isExpanded ==> Run(Init, evs).showContent
    decreases |evs|
  {
    if evs != [] {
      Reachable(evs[..|evs| - 1]);
      StepKeepsInv(Run(Init, evs[..|evs| - 1]), evs[|evs| - 1]);
    }
  }

  /**
    Every collapse ends in the initial geometry: from a reachable collapsed
    state, completing whatever timeline is in flight leaves a 56 by 56
    circle, the profile at the origin at scale 1, and no content.
  */
  lemma CollapseEndsAtRest(x: Expansion, measured: int)
    requires Inv(x) && !x.isExpanded
    ensures var r := Step(x, TimelineDone(measured));
            r.box == Init.box && r.pose == Init.pose && !r.showContent && r.tween == Still
  {
  }

  /**
    What the controller relies on when it kills tweens: if the handler of a
    closing timeline interrupted by a re-expand still ran, an open, close,
    open sequence would end expanded with no content.
  */
  lemma {:induction false} OrphanedCloseBreaksInv()
    ensures var x := Run(Init, [ContainerClick, ContainerClick, ContainerClick]);
            && Inv(x) && x.isExpanded && x.tween == Opening
            && CloseHandler(x).isExpanded && !CloseHandler(x).showContent && !Inv(CloseHandler(x))
  {
    var evs := [ContainerClick, ContainerClick, ContainerClick];
    assert evs[..2] == [ContainerClick, ContainerClick];
    assert evs[..2][..1] == [ContainerClick];
    assert evs[..2][..1][..0] == [];
    var one: seq<Event> := [ContainerClick];
    assert one[..0] == [];
    var x1 := Run(Init, one);
    assert x1 == Step(Run(Init, []), ContainerClick);
    var x2 := Run(Init, evs[..2]);
    assert x2 == Step(x1, ContainerClick);
    assert x2.showContent && !x2.isExpanded;
  }
}

=== FILE: js_string.dfy ===
/** JavaScript string slicing, and the dropdown's address shortener built on it. */
module JsString {

  function Min(a: int, b: int): int { if a < b then a else b }

  function Max(a: int, b: int): int { if a < b then b else a }

  /** How `String.prototype.slice` turns an index into a position: negative counts from the end; clamped to `[0, len]`. */
  function Clamp(i: int, len: nat): (r: nat)
    ensures r <= len
    ensures 0 <= i <= len ==> r == i
    ensures i < 0 && -i <= len ==> r == len + i
    ensures (i < 0 && -i > len) ==> r == 0
    ensures i > len ==> r == len
  {
    if i < 0 then (if len + i < 0 then 0 else len + i)
    else if i > len then len
    else i
  }

  /** `s.slice(start, end)`: empty when the clamped end is not after the clamped start. */
  function Slice(s: string, start: int, end: int): (r: string)
    ensures Clamp(start, |s|) < Clamp(end, |s|) ==> |r| == Clamp(end, |s|) - Clamp(start, |s|)
    ensures Clamp(start, |s|) >= Clamp(end, |s|) ==> r == []
    ensures forall k :: 0 <= k < |r| ==> r[k] == s[Clamp(start, |s|) + k]
  {
    var from, to := Clamp(start, |s|), Clamp(end, |s|);
    if from < to then s[from..to] else []
  }

  /** `s.slice(start)`: from the clamped start to the end. */
  function SliceFrom(s: string, start: int): (r: string)
    ensures |r| == |s| - Clamp(start, |s|)
    ensures forall k :: 0 <= k < |r| ==> r[k] == s[Clamp(start, |s|) + k]
  {
    Slice(s, start, |s|)
  }

  /**
    The dropdown's address label: the first four characters, "...", and the
    last four. A short address is not padded; its two halves may overlap.
  */
  function TruncateAddress(a: string): (r: string)
    ensures r == a[..Min(4, |a|)] + "..." + a[Max(|a| - 4, 0)..]
    ensures |r| == 2 * Min(4, |a|) + 3
    ensures |a| >= 8 ==> |r| == 11 && r[..4] == a[..4] && r[4..7] == "..." && r[7..] == a[|a| - 4..]
  {
    var head := Slice(a, 0, 4);
    var tail := SliceFrom(a, -4);
    assert head == a[..Min(4, |a|)];
    assert tail == a[Max(|a| - 4, 0)..];
    head + "..." + tail
  }
}

=== FILE: token_icon.dfy ===
/**
  The token icon: picks an image URL, walks the SOL fallback list on load
  errors, and finally shows the symbol's initial letter instead of an image.
*/
module TokenIcon {
  import opened Common

  /** The three SOL logo URLs, tried in this order. */
  const SolIcons: seq<string> := [
    "https://raw.githubusercontent.com/solana-labs/token-list/main/assets/mainnet/So11111111111111111111111111111111111111112/logo.png",
    "https://cdn.jsdelivr.net/gh/solana-labs/token-list@main/assets/mainnet/So11111111111111111111111111111111111111112/logo.png",
    "https://cryptologos.cc/logos/solana-sol-logo.png"
  ]

  const GenericLogo: string := "/logo.png"

  const DefaultSize: int := 24

  /** The component's props; `className` is styling and is not modelled. */
  datatype Props = Props(symbol: Option<string>, image: Option<string>, size: Option<int>)

  /** The component's state: which SOL URL is in use, and whether images were given up on. */
  datatype IconState = IconState(index: nat, imgError: bool)

  const Init: IconState := IconState(0, false)

  /** JavaScript truthiness of an optional string. */
  predicate Truthy(s: Option<string>)
  {
    s.Some? && s.value != ""
  }

  predicate IsSol(p: Props)
  {
    p.symbol == Some("SOL")
  }

  /**
    The URL to load: a given image always wins; otherwise SOL uses its
    current fallback URL and every other symbol the generic logo.
  */
  function IconUrl(p: Props, st: IconState): (url: string)
    ensures Truthy(p.image) ==> url == p.image.value
    ensures !Truthy(p.image) && IsSol(p) && st.index < |SolIcons| ==> url == SolIcons[st.index]
    ensures !Truthy(p.image) && !IsSol(p) ==> url == GenericLogo
    ensures url == GenericLogo || url in SolIcons || (Truthy(p.image) && url == p.image.value)
  {
    if Truthy(p.image) then p.image.value
    else if IsSol(p) && st.index < |SolIcons| && SolIcons[st.index] != "" then SolIcons[st.index]
    else GenericLogo
  }

  /**
    The image failed to load. Only a rendered image can fail, so once the
    state has given up on images it is terminal. For SOL the next fallback is
    tried while one remains; otherwise the letter fallback takes over. The
    handler does not look at `image`: for a SOL icon with its own image an
    error advances the index, but the URL stays that image
    (`OwnImageUrlStays`). Whether a further error then arrives for the
    unchanged source is browser behaviour outside this model.
  */
  function ImageError(p: Props, st: IconState): (r: IconState)
    ensures st.imgError ==> r == st
    ensures !st.imgError && IsSol(p) && st.index < |SolIcons| - 1 ==> r == IconState(st.index + 1, false)
    ensures !st.imgError && !(IsSol(p) && st.index < |SolIcons| - 1) ==> r == st.(imgError := true)
    ensures st.index < |SolIcons| ==> r.index < |SolIcons|
  {
    if st.imgError then st
    else if IsSol(p) && st.index < |SolIcons| - 1 then IconState(st.index + 1, false)
    else st.(imgError := true)
  }

  /** The state after `n` consecutive load errors. */
  function Errors(p: Props, st: IconState, n: nat): IconState
    decreases n
  {
    if n == 0 then st else ImageError(p, Errors(p, st, n - 1))
  }

  /** The SOL index never leaves the fallback list. */
  lemma {:induction false} IndexInRange(p: Props, n: nat)
    ensures Errors(p, Init, n).index < |SolIcons|
    decreases n
  {
    if n > 0 {
      IndexInRange(p, n - 1);
    }
  }

  /** For SOL the chain is exactly: the three URLs in order, then the letter. */
  lemma {:induction false} SolChain(p: Props, n: nat)
    requires IsSol(p)
    ensures n < 3 ==> Errors(p, Init, n) == IconState(n, false)
    ensures n >= 3 ==> Errors(p, Init, n) == IconState(2, true)
    decreases n
  {
    if n > 0 {
      SolChain(p, n - 1);
    }
  }

  /** For any other symbol a single error reaches the letter. */
  lemma {:induction false} OtherChain(p: Props, n: nat)
    requires !IsSol(p)
    ensures n >= 1 ==> Errors(p, Init, n) == IconState(0, true)
    decreases n
  {
    if n > 1 {
      OtherChain(p, n - 1);
    }
  }

  /** SOL needs exactly three consecutive errors to give up on images; any other symbol one. */
  lemma ErrorsToLetter(p: Props, n: nat)
    ensures Errors(p, Init, n).imgError <==> (if IsSol(p) then n >= 3 else n >= 1)
  {
    if IsSol(p) {
      SolChain(p, n);
    } else {
      OtherChain(p, n);
    }
  }

  /** The URLs a SOL icon without its own image tries are the fallback list, in order. */
  lemma SolUrlsInOrder(p: Props, n: nat)
    requires IsSol(p) && !Truthy(p.image) && n < 3
    ensures IconUrl(p, Errors(p, Init, n)) == SolIcons[n]
  {
    SolChain(p, n);
  }

  /** A given image stays the URL through any number of errors, for SOL too, while images are still tried. */
  lemma OwnImageUrlStays(p: Props, n: nat)
    requires Truthy(p.image)
    ensures IconUrl(p, Errors(p, Init, n)) == p.image.value
    ensures IsSol(p) && n < 3 ==> Errors(p, Init, n) == IconState(n, false)
  {
    if IsSol(p) {
      SolChain(p, n);
    }
  }

  /** ASCII upper-casing of one character. */
  function Upper(c: char): (u: char)
    ensures 'a' <= c <= 'z' ==> 'A' <= u <= 'Z' && u as int == c as int - 32
    ensures !('a' <= c <= 'z') ==> u == c
  {
    if 'a' <= c <= 'z' then (c as int - 32) as char else c
  }

  /** The letter fallback: the symbol's first character upper-cased, or "?" without a symbol. */
  function Letter(symbol: Option<string>): (g: string)
    ensures |g| == 1
    ensures !('a' <= g[0] <= 'z')
    ensures !Truthy(symbol) ==> g == "?"
    ensures Truthy(symbol) ==> g[0] == Upper(symbol.value[0])
  {
    if Truthy(symbol) then [Upper(symbol.value[0])] else "?"
  }

  /** What the component renders inside its bordered box. */
  datatype Content = Image(url: string, size: int) | LetterBadge(text: string, size: int)

  datatype Rendered = Rendered(boxSize: int, content: Content)

  /**
    The outer box is two pixels larger than the image or letter badge; the
    size defaults to 24 only when the prop is absent. An image is rendered
    exactly while the state has not given up on images.
  */
  function Render(p: Props, st: IconState): (r: Rendered)
    ensures r.boxSize == r.content.size + 2
    ensures p.size.None? ==> r.content.size == DefaultSize
    ensures p.size.Some? ==> r.content.size == p.size.value
    ensures r.content.Image? <==> !st.imgError
    ensures r.content.Image? ==> r.content.url == IconUrl(p, st)
    ensures r.content.LetterBadge? ==> r.content.text == Letter(p.symbol)
  {
    var size := if p.size.Some? then p.size.value else DefaultSize;
    Rendered(size + 2, if st.imgError then LetterBadge(Letter(p.symbol), size) else Image(IconUrl(p, st), size))
  }

  /**
    The rendered icon follows the error chain: after `n` load errors from the
    initial state the letter badge is shown exactly when SOL has had three
    errors or any other symbol one, and before that the image at the current
    URL.
  */
  lemma RenderAfterErrors(p: Props, n: nat)
    ensures var st := Errors(p, Init, n);
            && (Render(p, st).content.LetterBadge? <==> (if IsSol(p) then n >= 3 else n >= 1))
            && (Render(p, st).content.Image? ==> Render(p, st).content.url == IconUrl(p, st))
  {
    ErrorsToLetter(p, n);
  }
}

=== FILE: wallet_dropdown.dfy ===
/**
  The wallet dropdown as one machine: the expand/collapse controller, the
  copy feedback and the balance poll side by side, driven by user events,
  wallet context changes and a millisecond clock, plus what it renders.
*/
module WalletDropdown {
  import opened Common
  import JsString
  import CopyFeedback
  import BalancePoll
  import Expansion

  /** What the component reads from the wallet and connection contexts. */
  datatype Session = Session(connected: bool, key: Option<string>, hasConnection: bool)

  datatype Dropdown = Dropdown(now: nat, mounted: bool, session: Session, exp: Expansion.Expansion,
                               copy: CopyFeedback.Copy, poll: BalancePoll.Poll)

  function DepsOf(se: Session): BalancePoll.Deps
  {
    BalancePoll.Deps(se.key, se.hasConnection)
  }

  /** The dropdown itself is rendered only for a connected wallet with a public key. */
  predicate Visible(se: Session)
  {
    se.connected && se.key.Some?
  }

  /** The component right after mounting at time 0: collapsed, nothing copied, the first balance fetch issued. */
  function Mount(se: Session): Dropdown
  {
    Dropdown(0, true, se, Expansion.Init, CopyFeedback.Init, BalancePoll.Mount(DepsOf(se), 0))
  }

  datatype Event =
    | Tick                         // one millisecond passes
    | ContainerClick
    | MouseDown(inside: bool)
    | TimelineDone(measured: int)
    | CopyClick(writeOk: bool)     // the copy button; `writeOk` is the clipboard's answer
    | BalanceSettled(result: Option<int>)  // an outstanding `getBalance` resolves (`Some`) or rejects (`None`)
    | SessionChange(se: Session)
    | Unmount

  /**
    One event. After unmounting, state updates are dropped, but the clock
    still runs and any interval still installed keeps firing its fetch. The
    container and the outside-click check need the rendered dropdown. The
    copy button takes the click only while expanded: while the content is
    still mounted for the closing timeline it ignores pointer events, so the
    click lands on the container and re-expands. When a session becomes
    visible again the container's inline `style` (56 by 56) is applied again
    and the profile node is created anew, so the box and the profile pose
    are back at rest.
  */
  function Step(s: Dropdown, ev: Event): (r: Dropdown)
    ensures !s.mounted ==> !r.mounted && r.session == s.session && r.exp == s.exp && r.copy == s.copy
    ensures !s.mounted && !ev.Tick? ==> r == s
    ensures !s.mounted && s.poll.intervals == [] ==> r.poll == s.poll
    ensures s.mounted && ev.Unmount? ==>
              && !r.mounted
              && (forall i :: 0 <= i < |r.poll.intervals| ==> r.poll.intervals[i].id != s.poll.current)
    ensures s.mounted && ev.CopyClick? && !(Visible(s.session) && s.exp.showContent) ==> r == s
    ensures s.mounted && ev.CopyClick? && Visible(s.session) && s.exp.isExpanded && s.exp.showContent && ev.writeOk ==>
              r.copy.copied && r.copy.clipboard == s.session.key
    ensures s.mounted && ev.CopyClick? && !s.exp.isExpanded ==> r.copy == s.copy
    ensures s.mounted && ev.CopyClick? && Visible(s.session) && !s.exp.isExpanded && s.exp.showContent ==>
              r.exp.isExpanded
    ensures s.mounted && (ev.ContainerClick? || ev.MouseDown?) && !Visible(s.session) ==> r == s
    ensures s.mounted && ev.Tick? ==>
              r == s.(now := s.now + 1, copy := CopyFeedback.Fire(s.copy, s.now + 1),
                      poll := BalancePoll.Tick(s.poll, s.now + 1))
    ensures s.mounted && ev.BalanceSettled? ==> r == s.(poll := BalancePoll.Resolve(s.poll, ev.result))
    ensures s.mounted && ev.TimelineDone? ==> r == s.(exp := Expansion.Step(s.exp, Expansion.TimelineDone(ev.measured)))
    ensures s.mounted && ev.ContainerClick? && Visible(s.session) ==>
              r == s.(exp := Expansion.Step(s.exp, Expansion.ContainerClick))
    ensures s.mounted && ev.MouseDown? && Visible(s.session) ==>
              r == s.(exp := Expansion.Step(s.exp, Expansion.MouseDown(ev.inside)))
    ensures s.mounted && ev.SessionChange? && DepsOf(ev.se) != s.poll.deps ==>
              && |r.poll.intervals| >= 1
              && r.poll.intervals[|r.poll.intervals| - 1]
                 == BalancePoll.Interval(s.poll.current + 1, DepsOf(ev.se), s.now + BalancePoll.Period)
              && (forall i :: 0 <= i < |r.poll.intervals| ==> r.poll.intervals[i].id != s.poll.current)
    ensures r.now == s.now + (if ev.Tick? then 1 else 0)
  {
    if !s.mounted then
      if ev.Tick? then s.(now := s.now + 1, poll := BalancePoll.Tick(s.poll, s.now + 1)) else s
    else
      match ev
      case Tick =>
        s.(now := s.now + 1, copy := CopyFeedback.Fire(s.copy, s.now + 1), poll := BalancePoll.Tick(s.poll, s.now + 1))
      case ContainerClick =>
        if Visible(s.session) then s.(exp := Expansion.Step(s.exp, Expansion.ContainerClick)) else s
      case MouseDown(inside) =>
        if Visible(s.session) then s.(exp := Expansion.Step(s.exp, Expansion.MouseDown(inside))) else s
      case TimelineDone(h) =>
        s.(exp := Expansion.Step(s.exp, Expansion.TimelineDone(h)))
      case CopyClick(ok) =>
        if !Visible(s.session) || !s.exp.showContent then s
        else if s.exp.isExpanded then s.(copy := CopyFeedback.CopyAddress(s.copy, s.now, s.session.key, ok))
        else s.(exp := Expansion.Step(s.exp, Expansion.ContainerClick))
      case BalanceSettled(res) =>
        s.(poll := BalancePoll.Resolve(s.poll, res))
      case SessionChange(se) =>
        var exp := if !Visible(s.session) && Visible(se)
                   then s.exp.(box := Expansion.RestBox, pose := Expansion.RestPose)
                   else s.exp;
        s.(session := se, exp := exp, poll := BalancePoll.Change(s.poll, DepsOf(se), s.now))
      case Unmount =>
        s.(mounted := false, poll := BalancePoll.Unmount(s.poll))
  }

  function Run(s: Dropdown, evs: seq<Event>): Dropdown
    decreases |evs|
  {
    if evs == [] then s else Step(Run(s, evs[..|evs| - 1]), evs[|evs| - 1])
  }

  /**
    What holds in every reachable state: the expansion invariant; while
    mounted exactly one interval is installed, the one the last effect run
    installed, bound to the current key and connection and due in the
    future; after unmounting none is; every pending
    copy reset of a mounted component is in the future.
  */
  ghost predicate Inv(s: Dropdown)
  {
    && Expansion.Inv(s.exp)
    && (s.mounted ==>
          && s.poll.deps == DepsOf(s.session)
          && |s.poll.intervals| == 1
          && s.poll.intervals[0].id == s.poll.current
          && s.poll.intervals[0].deps == s.poll.deps
          && s.poll.intervals[0].nextDue > s.now)
    && (!s.mounted ==> s.poll.intervals == [])
    && (s.mounted ==> forall t :: t in s.copy.timers ==> t > s.now)
  }

  lemma StepKeepsInv(s: Dropdown, ev: Event)
    requires Inv(s)
    ensures Inv(Step(s, ev))
  {
    if s.mounted {
      BalancePoll.ClearAllOwn(s.poll.intervals, s.poll.current);
      match ev {
        case ContainerClick => Expansion.StepKeepsInv(s.exp, Expansion.ContainerClick);
        case MouseDown(inside) => Expansion.StepKeepsInv(s.exp, Expansion.MouseDown(inside));
        case TimelineDone(h) => Expansion.StepKeepsInv(s.exp, Expansion.TimelineDone(h));
        case CopyClick(_) => Expansion.StepKeepsInv(s.exp, Expansion.ContainerClick);
        case _ =>
      }
    }
  }

  /** Every state reached from a mount satisfies the invariant. */
  lemma {:induction false} Reachable(se: Session, evs: seq<Event>)
    ensures Inv(Run(Mount(se), evs))
    decreases |evs|
  {
    if evs == [] {
      assert Expansion.Inv(Expansion.Init);
    } else {
      Reachable(se, evs[..|evs| - 1]);
      StepKeepsInv(Run(Mount(se), evs[..|evs| - 1]), evs[|evs| - 1]);
    }
  }

  /**
    Once unmounted, no later event issues a balance request or changes
    anything the component shows: the cleanup cleared the interval, so the
    ticks that still pass find nothing to fire.
  */
  lemma {:induction false} SilentAfterUnmount(s: Dropdown, evs: seq<Event>)
    requires Inv(s) && !s.mounted
    ensures var r := Run(s, evs);
            && !r.mounted && r.poll == s.poll && r.poll.requests == s.poll.requests
            && r.session == s.session && r.exp == s.exp && r.copy == s.copy
    decreases |evs|
  {
    if evs != [] {
      SilentAfterUnmount(s, evs[..|evs| - 1]);
    }
  }

  /** A dropdown unmounted after any history stays silent whatever follows. */
  lemma UnmountedStaysSilent(se: Session, before: seq<Event>, after: seq<Event>)
    ensures var s := Run(Mount(se), before + [Unmount]);
            Run(s, after).poll.requests == s.poll.requests
  {
    var evs := before + [Unmount];
    Reachable(se, evs);
    SilentAfterUnmount(Run(Mount(se), evs), after);
  }

  /**
    A press on the copy button's spot during the closing timeline does not
    copy: the content ignores pointer events, the container takes the click,
    and the dropdown expands again.
  */
  lemma CopyWhileClosingReexpands(se: Session)
    requires Visible(se)
    ensures var s := Run(Mount(se), [ContainerClick, ContainerClick, CopyClick(true)]);
            && s.exp.isExpanded && !s.copy.copied && s.copy.clipboard.None?
  {
    var evs := [ContainerClick, ContainerClick, CopyClick(true)];
    assert evs[..2] == [ContainerClick, ContainerClick];
    assert evs[..2][..1] == [ContainerClick];
    assert evs[..2][..1][..0] == [];
    var s0 := Mount(se);
    var one: seq<Event> := [ContainerClick];
    assert one[..0] == [];
    var s1 := Run(s0, one);
    assert s1 == Step(Run(s0, []), ContainerClick);
    var s2 := Run(s0, evs[..2]);
    assert s2 == Step(s1, ContainerClick);
    assert s2.mounted && s2.exp.showContent && !s2.exp.isExpanded && s2.copy == CopyFeedback.Init;
  }

  /** The balance label: the null branch reads "0.00"; a fetched amount is shown in SOL (display arithmetic not modelled). */
  datatype BalanceText = Text(s: string) | Amount(lamports: int)

  /** The expanded content: pointer events, the shortened address, the copy icon, and the balance unless loading. */
  datatype Content = Content(pointerEvents: bool, address: string, copiedIcon: bool, balance: Option<BalanceText>)

  datatype View =
    | Prompt(message: string)
    | Panel(content: Option<Content>)

  /** The balance label: "0.00" when no balance was ever stored, otherwise the stored amount. */
  function FormatBalance(b: Option<int>): (r: BalanceText)
    ensures b.None? <==> r.Text?
    ensures b.None? ==> r == Text("0.00")
    ensures b.Some? ==> r == Amount(b.value)
  {
    if b.None? then Text("0.00") else Amount(b.value)
  }

  /**
    What the component renders. Without a connected wallet and key it shows
    a prompt. Otherwise the content is present exactly while mounted by the
    controller, receives pointer events exactly while expanded, shows the
    shortened address and, when not loading, the balance, "0.00" if none was
    ever fetched.
  */
  function Render(s: Dropdown): (v: View)
    ensures v.Panel? <==> Visible(s.session)
    ensures v.Prompt? && !s.session.connected ==> v.message == "Connect a wallet to view dropdown"
    ensures v.Prompt? && s.session.connected ==> v.message == "No wallet connected"
    ensures v.Panel? ==> (v.content.Some? <==> s.exp.showContent)
    ensures v.Panel? && v.content.Some? ==>
              && (v.content.value.pointerEvents <==> s.exp.isExpanded)
              && v.content.value.address == JsString.TruncateAddress(s.session.key.value)
              && v.content.value.copiedIcon == s.copy.copied
              && (v.content.value.balance.Some? <==> !s.poll.loading)
    ensures v.Panel? && v.content.Some? && !s.poll.loading && s.poll.balance.None? ==>
              v.content.value.balance == Some(Text("0.00"))
    ensures v.Panel? && v.content.Some? && !s.poll.loading && s.poll.balance.Some? ==>
              v.content.value.balance == Some(Amount(s.poll.balance.value))
  {
    if !Visible(s.session) then
      Prompt(if !s.session.connected then "Connect a wallet to view dropdown" else "No wallet connected")
    else if !s.exp.showContent then Panel(None)
    else
      Panel(Some(Content(s.exp.isExpanded, JsString.TruncateAddress(s.session.key.value), s.copy.copied,
                         if s.poll.loading then None else Some(FormatBalance(s.poll.balance)))))
  }

  /** In every reachable state an expanded dropdown shows its content, and the content takes pointer events only while expanded. */
  lemma ExpandedShowsContent(se: Session, evs: seq<Event>)
    ensures var s := Run(Mount(se), evs);
            Visible(s.session) && s.exp.isExpanded ==>
              Render(s).Panel? && Render(s).content.Some? && Render(s).content.value.pointerEvents
  {
    Reachable(se, evs);
  }
}
